=== FILE: README.md ===
# Word Imposter game core in Dafny

A Dafny model of the sequential game logic of the Word Imposter Discord bot
(`WI/bot.py`). In the game, players join a lobby in a channel. One or more
imposters are secretly chosen, and they do not get the secret word. Everyone
takes turns describing the word over several rounds. Then everyone votes on
who the imposter is.

The model is functional. A game is an immutable record, and each bot action is
a pure transition over that record.

- `wrappers.dfy` — `Option` and `Result`. These stand in for `None` returns and
  refusal messages.
- `collections.dfy` — one set lemma used by the proofs.
- `roster.dfy` — the roster is a Python list. This file models `list.remove`
  (it drops the first occurrence) and the order-preserving filter it matches on
  a duplicate-free list.
- `game_state.dfy` — the `GameState` record and `remove_player`, the single
  purge path. Also the join checks, start, `/leave`, and the vote-kick poll.
- `settings.dfy` — `ServerSettings`, `get_settings` and the validated partial
  update `update_server_settings`. The JSON file becomes a map, plus a flag
  saying whether the save worked.
- `game_manager.dfy` — the room registry `GameManager`: `create_game`,
  `end_game`, `can_create_game`, `get_game`, and `/forcequit`. The lock only
  serialises access, so each operation is one sequential step.
- `description.dfy` — the description phase: the turn timeout formula, one turn,
  a round, and the whole phase. The shuffled order and each turn's result
  (message or timeout) are inputs.
- `voting.dfy` — casting a vote, the early tally, the counting algorithm of
  `tally_votes`, the `votes_tallied` latch, and the two vote-timer handlers.
  It also models any interleaving of these with leaves and kicks, up to the
  moment the game ends.
- `room.dfy` — the steps that call `end_game` on the registry: a tally, and a
  `/leave` or completed vote-kick that leaves fewer players than the minimum.
- `words.dfy` — the word pool rule of `get_random_word`.

Randomness is an input everywhere. The shuffle, the imposter sample and the word
choice are parameters or a nondeterministic pick.

Behaviour of the code that the model keeps:

- The voted set does not mirror the keys of `votes`. `remove_player` drops votes
  cast FOR the removed player, but those voters stay in `voted_users`. Only
  `votes.Keys <= voted` is kept (`GameState.Wf`). See
  `Voting.VotedOutlivesPurgedVote`.
- Nothing ends the game when inactivity removal leaves too few players after the
  description phase. Only `/leave` and a successful vote-kick check the minimum
  (`Room.LeaveRoom`, `Room.KickBallotInRoom`). See
  `Description.InactivePlayerDropped`.
- The turn timeout is computed once, from the roster size at the start of the
  phase. It is not recomputed each round.
- Inactivity removal only touches the roster. So a removed imposter stays in
  `imposters`, and imposters need not be a subset of the roster.
- Joining does not clear the left set. A player who leaves the lobby, rejoins and
  tries to leave again is refused. See `GameState.RejoinAfterLeaveCannotLeave`.
- Settings validation never checks `rounds`, `max_missed_rounds`, or that
  `min_players >= 1`. Only the order of the player bounds and the two timeout
  floors are guarded.

## Model

| member | source | states |
|---|---|---|
| GameState.NewGame | WI/bot.py:45-65 | a new game has an empty roster, no votes, descriptions or missed counts, is not started, and has its tally latch open |
| GameState.RemovePlayer | WI/bot.py:67-82 | on a duplicate-free roster the removed player is left in none of roster, imposters, description keys, vote keys, vote targets, missed-round keys or the voted set; the roster becomes the order-preserving filter of the old one; kicked/left sets and phase flags are unchanged |
| GameState.RemovePlayerKeepsOthers | WI/bot.py:67-82 | every other player's imposter flag, descriptions, missed count and voted flag are unchanged; a vote survives exactly when neither its voter nor its target is the removed player, with its target unchanged |
| GameState.RemovePlayerKeepsWf | WI/bot.py:67-82 | removal keeps the roster duplicate-free and every recorded voter in the voted set |
| GameState.RemovePlayerIdempotent | WI/bot.py:67-82 | removing a player a second time changes nothing |
| GameState.RemovePlayerKeepsPurged | WI/bot.py:67-82 | removing someone else never brings back a purged player |
| GameState.RemoveAllPurges | WI/bot.py:67-82 | after any sequence of removals, every removed player is purged and the record stays well formed |
| Roster.RemoveFirst | WI/bot.py:69-70 | `list.remove` drops exactly one copy of a present value (multiset minus one) and keeps every other value's membership; where Python raises on an absent value, this total version returns the roster unchanged, since every call site either checks membership first (line 69) or is modelled with the raise as a failure (`Description.CompleteTurnAsWritten`, line 849) |
| Roster.RemoveFirstOfDistinct | WI/bot.py:69-70 | on a duplicate-free roster `list.remove` equals the order-preserving filter, so the removed player is gone and the others keep their relative order |
| Roster.RemoveFirstKeepsNoDup | WI/bot.py:69-70 | removal keeps the roster duplicate-free |
| Roster.AppendFreshKeepsNoDup | WI/bot.py:533-540 | appending a player who is not on the roster keeps it duplicate-free |
| Roster.RemoveFirstLeavesDuplicate | WI/bot.py:69-70 | on a roster holding a player twice, one `list.remove` leaves a copy, which is why duplicate-freedom matters |
| GameState.Join | WI/bot.py:519-540 | join succeeds iff the game has not started, the roster is below the maximum, and the player is not on it; the refusals are checked in that order; success appends the player and changes nothing else; well-formedness is kept and the roster never exceeds the maximum |
| GameState.Start | WI/bot.py:700-714 | start (after the button checks of lines 443-455) is refused below the minimum first, then when already started; otherwise the game becomes started with exactly the sampled imposters (drawn from the roster) and the drawn word, absent when the draw raised, and nothing else changes |
| GameState.BelowMinimum | WI/bot.py:357-363 | the end-of-game test after a kick or a leave: fewer players on the roster than the configured minimum |
| GameState.Reset | WI/bot.py:84-87 | a reset game has an empty roster, no votes and is not started, yet keeps its tally latch, which `__init__` does not assign |
| GameState.Leave | WI/bot.py:1151-1165 | leave succeeds iff the player is on the roster and not in the left set; the result is exactly `remove_player` of the leaver plus their entry in the left set, so the leaver is purged, every other player's records are untouched, and the kicked set is unchanged |
| GameState.RejoinAfterLeaveCannotLeave | WI/bot.py:1157-1165 | a player who leaves and rejoins is on the roster and in the left set at once, so a second leave is refused |
| GameState.RequiredKickVotes | WI/bot.py:316 | the kick threshold is at least two and at least half the roster (rounded down), and equals one of the two |
| GameState.OpenKickPoll | WI/bot.py:1184-1202 | a poll opens iff the game has started and both target and initiator are on the roster; it starts with no ballots and the threshold of the current roster size |
| GameState.Kick | WI/bot.py:344-346 | a kick is exactly `remove_player` of the target plus their entry in the kicked set: the target is purged, every other player's records are untouched, and the left set is unchanged |
| GameState.CastKickBallot | WI/bot.py:322-346 | a ballot is accepted iff the voter is on the roster, has not voted in this poll, and the target has not been kicked; a ballot short of the threshold changes nothing in the game, and one that reaches it performs exactly the kick of the target |
| GameState.KickNeedsTwoBallots | WI/bot.py:316 | a kick through a poll always has at least two distinct ballots, whatever the roster size was when the poll fixed its threshold |
| Settings.Check | WI/bot.py:204-216 | validation never reports a save failure; it reports a timeout only once the player bounds pass, and the vote timeout only once the description timeout passes |
| Settings.Apply | WI/bot.py:218-221 | every field given in the update replaces the current one and every absent field keeps its current value; an update with no fields leaves the settings unchanged |
| Settings.ApplyIdempotent | WI/bot.py:218-221 | applying the same update twice is the same as applying it once |
| Settings.CheckMatchesGuards | WI/bot.py:204-216 | validation accepts an update exactly when every given bound respects its partner bound (the given one, else the current one) and every given timeout is at least 10; an accepted update of valid settings keeps min <= max and both timeout floors |
| Settings.GetSettings | WI/bot.py:184-192 | an empty id yields defaults and leaves the store unchanged; a known id yields its stored settings; an unknown id gets defaults stored under it; no other key is added and other entries are unchanged |
| Settings.UpdateServerSettings | WI/bot.py:194-229 | a rejected update returns the first failed check and leaves the server's settings as they were; the call succeeds iff validation passes and the save works; an accepted update is stored even when the save fails, which is then reported as a save failure; the keys are those after `get_settings`, and other servers are untouched |
| Settings.UpdateKeepsStoreValid | WI/bot.py:204-221 | if all stored settings are valid, they stay valid after any update attempt |
| Settings.MinAboveCurrentMaxRejected | WI/bot.py:207-208 | setting min 5 against a current max of 3 is refused and nothing changes |
| GameManager.CanCreateGame | WI/bot.py:600-602 | on a consistent registry a game can be created in a channel iff it has no game |
| GameManager.GetGame | WI/bot.py:578-580 | the lookup finds a game iff the channel has one, that is, iff no game can be created there |
| GameManager.CreateGame | WI/bot.py:582-591 | creation fails iff the channel is in use; otherwise the channel maps to a fresh game, joins the used set, other channels are untouched, and registry consistency is kept |
| GameManager.EndGame | WI/bot.py:593-598 | ending removes the channel from both the games map and the used set, is a no-op for an absent game, leaves other channels alone, and keeps consistency |
| GameManager.ForceQuitAll | WI/bot.py:991-993 | after a force quit every channel is free and has no game |
| GameManager.CreateTwiceFails | WI/bot.py:582-585 | of two creations in one channel the second fails with the already-active error |
| GameManager.CreateThenEnd | WI/bot.py:582-598 | creating and then ending a game in a free channel restores the registry exactly |
| GameManager.EndGameIdempotent | WI/bot.py:593-598 | ending twice is the same as ending once |
| GameManager.JoinRoom | WI/bot.py:511-540 | joining fails when the channel has no game; otherwise it succeeds iff the game's own join checks pass, and it stores exactly the joined game back under the channel, leaving every other channel and the used set as they were |
| Description.AdjustedTimeout | WI/bot.py:793-796 | the turn timeout is never below the base, equals the base for five players or fewer, and adds ten seconds per player beyond five |
| Description.TimeoutMonotone | WI/bot.py:793-796 | more players never shorten the timeout |
| Description.TimeoutExamples | WI/bot.py:793-796 | 60 seconds with 8 players gives 90; with 3 players it stays 60 |
| Description.TakeTurn | WI/bot.py:820-852 | a player off the roster is skipped and nothing changes; a message is appended to that player's descriptions only; a timeout adds exactly one missed round; below the limit the roster is unchanged, and at the limit a duplicate-free roster becomes the order-preserving filter without the player; imposters, votes and the voted, kicked and left sets never change; other players' records are untouched; the roster stays duplicate-free and only shrinks |
| Description.CompleteTurnAsWritten | WI/bot.py:838-852 | the code after the wait, as written: it records a message even for a player no longer on the roster, and it fails (`list.remove` raises) exactly on a timeout that reaches the limit for a player no longer on the roster |
| Description.TakeTurnAgreesWhenPresent | WI/bot.py:820-852 | when the player is still on the roster, the corrected turn and the code as written give the same result |
| Description.TakeTurnKeepsPurged | WI/bot.py:820-822 | a player purged by a leave or kick stays purged through any turn |
| Description.LeaveDuringOwnTurnAsWritten | WI/bot.py:834-849 | as written, a player who leaves during their own wait and then answers gets a description entry back while in the left set; if their wait times out at the limit, `list.remove` fails |
| Description.RunRound | WI/bot.py:820-852 | a round never changes imposters, votes, the voted, kicked and left sets, or the phase flags |
| Description.RunRoundEffect | WI/bot.py:817-852 | within a round the roster stays duplicate-free and only shrinks; every dropped player has reached the missed-round limit; missed counts never decrease; players with no turn stay on the roster and keep their descriptions and missed count |
| Description.RunRoundKeepsPurged | WI/bot.py:817-822 | a purged player stays purged through a whole round |
| Description.RunRounds | WI/bot.py:813-814 | after the rounds the round number is the number of the last round run, and the phase flag is unchanged |
| Description.DescriptionPhase | WI/bot.py:786-854 | the phase marks itself started and ends with the round number equal to the configured round count; with no rounds only the flag changes |
| Description.RunRoundsEffect | WI/bot.py:813-852 | across all rounds the roster stays duplicate-free and only shrinks, dropped players have reached the limit, missed counts never decrease, and imposters, votes, the voted, kicked and left sets and the started flag are unchanged |
| Description.InactivePlayerDropped | WI/bot.py:842-854 | with two players, one round and a limit of one, the silent player is dropped and the roster falls below a minimum of two while the game stays started |
| Voting.CastVote | WI/bot.py:384-420 | a vote is refused iff the voter is off the roster or already has a vote; otherwise exactly the entry voter to target is added, the voter joins the voted set, nothing else changes, and the early tally is triggered iff the vote count equals the roster size |
| Voting.Decide | WI/bot.py:630-683 | zero votes gives the no-votes result; otherwise the players win iff a single target holds the strict maximum and is an imposter, and the imposters and word are always revealed |
| Voting.CountVotes | WI/bot.py:636-638 | the counting loop gives every voted-for target a positive entry equal to the number of votes naming it |
| Voting.TallyOutcome | WI/bot.py:636-671 | the max-then-leaders computation declares the players the winners exactly when an imposter holds the strict maximum of votes |
| Voting.Tally | WI/bot.py:623-633 | a tally produces a verdict iff the latch was open, always leaves the latch closed, and a second tally is a no-op; the game's end is `Room.TallyInRoom` |
| Voting.TallyVotes | WI/bot.py:623-671 | the source's counting algorithm yields the same state and verdict as the reference tally |
| Voting.TimerFiresAsWritten | WI/bot.py:609-621 | as written the vote timer never produces a verdict and never changes the game |
| Voting.TimerFires | WI/bot.py:609-615 | with the latch initialised, a started game not yet tallied is tallied when the timer fires: the result is exactly that game with the latch closed, together with the reference verdict; otherwise nothing happens |
| Voting.TimerCancelledAsWritten | WI/bot.py:616-619 | as written a cancelled timer never tallies: the direct read of the missing attribute raises inside the handler |
| Voting.TimerCancelled | WI/bot.py:616-619 | with the latch initialised to false (not the code as written), a cancelled timer tallies iff no tally has run and everyone on the roster has voted, and then announces the reference verdict; apart from closing the latch when it tallies, the game is unchanged |
| Voting.TimeoutWithMissingVote | WI/bot.py:609-615 | with one vote for the imposter out of two players, the as-written timer announces nothing while the corrected one announces a players' win |
| Voting.Step | WI/bot.py:384-420 | an event gives a verdict only while the latch is open, closes it exactly then, and the verdict is the reference one on the state after the event; a refused vote, leave or kick changes nothing; an accepted vote leaves exactly the state `CastVote` gives (latch aside), so a verdict counts the completing vote; a leave or kick leaves exactly the `Leave` or `Kick` state; a vote gives a verdict iff it is accepted and completes the roster's votes; a leave or kick never gives a verdict and ends the game iff it succeeds and leaves the roster below the minimum (lines 357-363 and 1171-1177); the timer event is exactly the latch-initialised `TimerFires` and gives a verdict iff the game is started and not yet tallied |
| Voting.AtMostOneVerdict | WI/bot.py:414-420 | any interleaving of votes, leaves, kicks and the timer announces at most one verdict, because the run stops when a verdict ends the game; none is announced once the game is tallied, and a verdict ends the game with the latch closed |
| Voting.NothingAfterEnd | WI/bot.py:593-598 | once a run has ended the game, further events change neither the game nor the verdicts |
| Voting.AttributeAppearsWithVerdict | WI/bot.py:45-65 | from an untallied game the `votes_tallied` attribute exists exactly once a verdict has been announced |
| Voting.DiscardedGameRefusesBallots | WI/bot.py:384-388 | a vote or kick ballot on a reset game is refused, because its roster is empty |
| Voting.VotedOutlivesPurgedVote | WI/bot.py:79-82 | removing a voted-for target drops the vote but keeps the voter in the voted set, and that voter may vote again |
| Voting.TallyExamples | WI/bot.py:640-671 | votes {A:X, B:X, C:Y} with imposters {X} are a players' win; the tie {A:X, B:Y} is an imposters' win whoever the imposter is |
| Room.TallyInRoom | WI/bot.py:623-633 | a tally on a channel's game announces a verdict iff the latch was open, and then the verdict is the reference one (the no-votes result when nothing was cast) and the channel has no game and is free; otherwise nothing changes; other channels are untouched |
| Room.LeaveRoom | WI/bot.py:1143-1177 | `/leave` fails when the channel has no game, otherwise succeeds iff the game's own checks pass; the game then ends, freeing the channel, iff the roster is below the minimum, and otherwise is stored back |
| Room.KickBallotInRoom | WI/bot.py:322-363 | a ballot succeeds iff the game's own ballot checks pass; a ballot short of the threshold changes nothing; a completed kick that leaves the roster below the minimum ends the game, otherwise the kicked game is stored back |
| Room.NothingAfterVerdict | WI/bot.py:593-598 | after a verdict a second tally announces nothing, `/leave` finds no game, and a new game can be created |
| Room.LeaveBelowMinimumEndsGame | WI/bot.py:1171-1177 | two players and a minimum of two: one leaving ends the game and empties the registry |
| Words.Available | WI/bot.py:256-259 | a draw picks only from the word list, and has something to pick exactly when the list is not empty |
| Words.UsedAfter | WI/bot.py:256-264 | the drawn word is recorded as used; drawing an unused word takes exactly that word out of the unused ones |
| Words.GetRandomWord | WI/bot.py:249-266 | an empty word list fails, having cleared the used set; otherwise the pick is a word not yet used when one exists, the used set gains it, and on exhaustion the used set restarts with the pick |
| Words.NoRepeatWithinCycle | WI/bot.py:249-266 | draws never repeat a word, nor return a used one, until the unused words run out |

## Left out

- Discord plumbing is left out: embeds, views, buttons, dropdown rendering, `fetch_user`, DMs, command registration, `ErrorHandler`, `on_ready`, status embeds and `/recall`. These are foreign UI and network calls.
- `WI/app.py` is not part of this model. It only hosts the bot process in a thread.
- asyncio scheduling is not modelled: `wait_for`, sleeps, the message rate limiter and the registry lock. A turn's result and any interleaving of voting events are inputs.
- File I/O is not modelled: the config file's creation, backup and atomic save, and the word files. The save result is a boolean input. Word files are sets of lines.
- `add_word`, `check_cooldown` and `is_appropriate_word` are left out. They depend on the profanity library and on wall-clock cooldowns.
- The imposter count (`multiple_imposters`, the float `imposter_ratio`) and `random.sample` are left out. `GameState.Start` takes the sampled set as an input and requires it to be drawn from the roster, as `random.sample` guarantees.
- GameState.Start: `start_game` marks the game started before it samples and draws. A sample larger than the roster (an `imposter_ratio` above 1, which settings never reject) makes `random.sample` raise, leaving a started game with no imposters and no word. The model reaches that state only as a start with an empty sample and no word; it does not model the raise itself.
- `end_game` resets the discarded game object and cancels its vote task. `GameState.Reset` models the reset, and a run of voting events stops once the game has ended. What the cancellation then does to the discarded game is not modelled, so `Voting.TimerCancelled` is stated only on its own.
- Description.DescriptionPhase: the missed-round limit is fixed for the whole phase. The source holds the stored settings object, which `/settings` updates in place, and reads `max_missed_rounds` afresh at each timeout. So a change made mid-phase applies from the next timeout, and the model does not cover it. The round count and the turn timeout are read once in the source as well, and the model matches that.
- GameManager.JoinRoom: the join button uses the registry only to check that the channel still has a game. Its checks and the append act on the game object the button was created with. The model identifies that object with the channel's current game. After `end_game` and a new game in the same channel, an old button appends to the discarded game; that case is not modelled. `Room.KickBallotInRoom` makes the same identification for the vote-kick view.
- `/forcequit` clears the registry without resetting the games or cancelling their timers. Those orphaned timers are not modelled.
- The `/vote` command is left out. It opens voting once the description phase has started, snapshots the roster as ballot options and starts the timer. The ballot options are not checked again when a vote is cast, so `Voting.CastVote` takes any target.
- The shuffled order of a round is an input. The round lemmas hold for any order, so they do not use the fact that the order is a permutation of the roster.
- Settings updates are a record of optional known fields. The source ignores keyword keys that name no setting, so such keys are not represented.
- The game start time, durations and the statistics embed are left out. They need the clock.

## Findings

| source | as written | input that shows it | evidently intended | confidence | as-written member | corrected member |
|---|---|---|---|---|---|---|
| WI/bot.py:609-621 | `GameState.__init__` never creates `votes_tallied`, and `auto_tally_votes` reads it directly after the sleep. The read raises `AttributeError`, which the generic handler swallows. So the vote timer never tallies. On the cancellation path (`Voting.TimerCancelledAsWritten`) the error escapes the handler. | Two players; one votes for the imposter; the other never votes, and `vote_timeout` elapses. No result is ever announced. | When the timer fires on a started game that has not been tallied, it tallies the votes cast so far. The latch is initialised to false. | high; not executed | Voting.TimerFiresAsWritten | Voting.TimerFires |
| WI/bot.py:834-852 | The membership check runs only before the wait for a player's message. A player who leaves or is kicked during their own wait still gets their late message recorded, or still gets a timeout counted. A timeout that reaches the limit then calls `joined_users.remove` on an absent id. That raises `ValueError`, which `except asyncio.TimeoutError` does not catch, and the description phase stops. | Roster [1, 2]; it is player 1's turn; player 1 uses `/leave` and then types a message, or lets the wait time out with `max_missed_rounds` = 1. | A player who left during their own turn is skipped when the wait ends, just as at the start of the turn. | medium; not executed | Description.CompleteTurnAsWritten | Description.TakeTurn |

=== FILE: collections.dfy ===
/** Small facts about finite sets used by the proofs. */
module Collections {

  /** A member of a non-empty set. */
  lemma SomeElement<T>(s: set<T>) returns (x: T)
    requires s != {}
    ensures x in s
  {
    assert (forall y :: y !in s) ==> s == {};
    x :| x in s;
  }
}

=== FILE: description.dfy ===
/** The description phase of `start_description_phase`: each round walks a
    shuffled snapshot of the roster; a player still on the roster gets one
    turn, which ends either with their message or with a timeout. A
    timeout counts a missed round, and a player whose count reaches the
    limit is dropped from the roster only (not purged). Waiting, shuffling
    and the chat messages are not modelled: a turn's order and outcome are
    inputs. */
module Description {
  import opened Wrappers
  import opened Roster
  import opened GameState
  import Settings

  /** The per-turn wait, in seconds: ten extra seconds for every player
      beyond five. It is computed once, from the roster size when the phase
      starts. */
  function AdjustedTimeout(base: int, playerCount: int): (t: int)
    ensures t >= base
    ensures playerCount <= 5 ==> t == base
    ensures playerCount >= 5 ==> t - base == 10 * (playerCount - 5)
  {
    var adjustment := (playerCount - 5) * 10;
    base + (if adjustment > 0 then adjustment else 0)
  }

  /** Larger games never get a shorter wait. */
  lemma TimeoutMonotone(base: int, n: int, m: int)
    requires n <= m
    ensures AdjustedTimeout(base, n) <= AdjustedTimeout(base, m)
  {
  }

  /** 60 seconds with 8 players gives 90; with 3 players it stays 60. */
  lemma TimeoutExamples()
    ensures AdjustedTimeout(60, 8) == 90
    ensures AdjustedTimeout(60, 3) == 60
  {
  }

  /** How a turn ended: the player's message arrived, or the wait timed out. */
  datatype TurnInput = Submitted(text: string) | TimedOut

  /** One scheduled turn: whose it is and how it ended. */
  datatype Turn = Turn(player: PlayerId, input: TurnInput)

  /** `missed_rounds.get(p, 0)`. */
  function MissedCount(g: Game, p: PlayerId): nat
  {
    if p in g.missedRounds then g.missedRounds[p] else 0
  }

  /** The descriptions recorded for `p`, empty when there is no entry. */
  function DescriptionsOf(g: Game, p: PlayerId): seq<string>
  {
    if p in g.descriptions then g.descriptions[p] else []
  }

  /** What a turn never changes: imposters, votes, the voted, kicked and
      left sets, and the lifecycle fields. */
  predicate TurnFrame(g: Game, r: Game)
  {
    && SameLifecycle(g, r)
    && r.imposters == g.imposters
    && r.votes == g.votes
    && r.voted == g.voted
    && r.kicked == g.kicked
    && r.left == g.left
  }

  /** One turn. A player who is not on the roster (removed before or during
      their turn) is skipped. A message is appended to the player's
      descriptions. A timeout adds one missed round and, once the count
      reaches `maxMissed`, drops the player from the roster with
      `list.remove`, leaving every other structure as it is. */
  function TakeTurn(g: Game, p: PlayerId, input: TurnInput, maxMissed: int): (r: Game)
    ensures p !in g.joined ==> r == g
    ensures TurnFrame(g, r)
    ensures forall q :: q in r.joined ==> q in g.joined
    ensures NoDup(g.joined) ==> NoDup(r.joined)
    ensures forall q :: q != p ==> MissedCount(r, q) == MissedCount(g, q) && DescriptionsOf(r, q) == DescriptionsOf(g, q)
    ensures forall q :: q != p ==> (q in r.joined <==> q in g.joined)
    ensures p in g.joined && input.Submitted? ==>
              DescriptionsOf(r, p) == DescriptionsOf(g, p) + [input.text]
              && MissedCount(r, p) == MissedCount(g, p) && r.joined == g.joined
    ensures p in g.joined && input.TimedOut? ==>
              MissedCount(r, p) == MissedCount(g, p) + 1 && DescriptionsOf(r, p) == DescriptionsOf(g, p)
    ensures p in g.joined && input.TimedOut? && NoDup(g.joined) ==>
              (p in r.joined <==> MissedCount(r, p) < maxMissed)
    ensures p in g.joined && input.TimedOut? && MissedCount(r, p) < maxMissed ==> r.joined == g.joined
    ensures p in g.joined && input.TimedOut? && MissedCount(r, p) >= maxMissed && NoDup(g.joined) ==>
              r.joined == Without(g.joined, p)
  {
    if p !in g.joined then g
    else
      var r := CompleteTurnAsWritten(g, p, input, maxMissed).value;
      if NoDup(g.joined) then
        RemoveFirstOfDistinct(g.joined, p);
        RemoveFirstKeepsNoDup(g.joined, p);
        r
      else
        r
  }

  /** The turn outcome a failed `list.remove` produces. */
  datatype TurnFailure = RemoveOfAbsentPlayer

  /** The code that runs once the wait for `p`'s message is over, exactly as
      written: it does not look at the roster again, although `p` may have
      left or been kicked while the bot was waiting. */
  function CompleteTurnAsWritten(g: Game, p: PlayerId, input: TurnInput, maxMissed: int): (r: Result<Game, TurnFailure>)
    ensures p in g.joined ==> r.Success?
    ensures input.Submitted? ==> r.Success? && DescriptionsOf(r.value, p) == DescriptionsOf(g, p) + [input.text]
    ensures input.TimedOut? && r.Success? ==> MissedCount(r.value, p) == MissedCount(g, p) + 1
    ensures r.Failure? <==> input.TimedOut? && p !in g.joined && MissedCount(g, p) + 1 >= maxMissed
  {
    match input
    case Submitted(text) =>
      Success(g.(descriptions := g.descriptions[p := DescriptionsOf(g, p) + [text]]))
    case TimedOut =>
      var n := MissedCount(g, p) + 1;
      var g1 := g.(missedRounds := g.missedRounds[p := n]);
      if n >= maxMissed then
        if p in g1.joined then Success(g1.(joined := RemoveFirst(g1.joined, p)))
        else Failure(RemoveOfAbsentPlayer)
      else Success(g1)
  }

  /** When nobody departed during the wait, the corrected turn and the code
      as written agree. */
  lemma TakeTurnAgreesWhenPresent(g: Game, p: PlayerId, input: TurnInput, maxMissed: int)
    requires p in g.joined
    ensures CompleteTurnAsWritten(g, p, input, maxMissed) == Success(TakeTurn(g, p, input, maxMissed))
  {
  }

  /** A player purged by a leave or a kick stays purged through any turn. */
  lemma TakeTurnKeepsPurged(g: Game, p: PlayerId, q: PlayerId, input: TurnInput, maxMissed: int)
    requires Purged(g, p)
    ensures Purged(TakeTurn(g, q, input, maxMissed), p)
  {
  }

  /** As written, a player who leaves while the bot waits for their message
      and then sends one gets a description entry back although the leave
      purged them; and if instead their wait times out with the limit
      reached, `list.remove` raises and the phase stops. */
  lemma LeaveDuringOwnTurnAsWritten()
    ensures var g := NewGame(1).(joined := [1, 2], started := true, descriptionPhaseStarted := true);
            var g1 := Leave(g, 1).value;
            var late := CompleteTurnAsWritten(g1, 1, Submitted("late"), 2);
            && 1 in g.joined
            && Purged(g1, 1)
            && late.Success? && 1 in late.value.descriptions && 1 in late.value.left
            && CompleteTurnAsWritten(g1, 1, TimedOut, 1) == Failure(RemoveOfAbsentPlayer)
  {
    var g := NewGame(1).(joined := [1, 2], started := true, descriptionPhaseStarted := true);
    assert NoDup(g.joined);
    var g1 := Leave(g, 1).value;
    assert 1 !in g1.joined;
  }

  /** The turns of one round, in the order they were taken. */
  function RunRound(g: Game, turns: seq<Turn>, maxMissed: int): (r: Game)
    ensures TurnFrame(g, r)
    decreases |turns|
  {
    if |turns| == 0 then g
    else RunRound(TakeTurn(g, turns[0].player, turns[0].input, maxMissed), turns[1..], maxMissed)
  }

  /** The players who have a turn in `turns`. */
  function Players(turns: seq<Turn>): set<PlayerId>
  {
    set i | 0 <= i < |turns| :: turns[i].player
  }

  /** What a stretch of turns preserves: the roster keeps no duplicates and
      only shrinks; every player it dropped has reached the missed-round
      limit; missed counts never decrease; players without a turn are
      untouched; and nothing outside the roster, descriptions and missed
      counts changes. */
  ghost predicate TurnsEffect(g: Game, r: Game, turns: seq<Turn>, maxMissed: int)
  {
    && (NoDup(g.joined) ==> NoDup(r.joined))
    && (forall q :: q in r.joined ==> q in g.joined)
    && (forall q :: q in g.joined && q !in r.joined ==> MissedCount(r, q) >= maxMissed)
    && (forall q :: MissedCount(g, q) <= MissedCount(r, q))
    && (forall q :: q !in Players(turns) ==>
          MissedCount(r, q) == MissedCount(g, q) && DescriptionsOf(r, q) == DescriptionsOf(g, q)
          && (q in r.joined <==> q in g.joined))
    && TurnFrame(g, r)
  }

  lemma {:induction false} RunRoundEffect(g: Game, turns: seq<Turn>, maxMissed: int)
    requires NoDup(g.joined)
    ensures TurnsEffect(g, RunRound(g, turns, maxMissed), turns, maxMissed)
    decreases |turns|
  {
    if |turns| != 0 {
      var t := turns[0];
      var g1 := TakeTurn(g, t.player, t.input, maxMissed);
      var r := RunRound(g, turns, maxMissed);
      RunRoundEffect(g1, turns[1..], maxMissed);
      assert Players(turns) == {t.player} + Players(turns[1..]) by {
        forall q | q in Players(turns) ensures q in {t.player} + Players(turns[1..]) {
          var i :| 0 <= i < |turns| && turns[i].player == q;
          if i > 0 {
            assert turns[1..][i - 1].player == q;
          }
        }
        forall q | q in Players(turns[1..]) ensures q in Players(turns) {
          var i :| 0 <= i < |turns[1..]| && turns[1..][i].player == q;
          assert turns[i + 1].player == q;
        }
      }
      forall q | q in g.joined && q !in r.joined ensures MissedCount(r, q) >= maxMissed {
        if q in g1.joined {
        } else {
          assert q == t.player;
        }
      }
    }
  }

  /** A player purged by a leave or a kick stays purged through a round. */
  lemma {:induction false} RunRoundKeepsPurged(g: Game, turns: seq<Turn>, maxMissed: int, p: PlayerId)
    requires Purged(g, p)
    ensures Purged(RunRound(g, turns, maxMissed), p)
    decreases |turns|
  {
    if |turns| != 0 {
      TakeTurnKeepsPurged(g, p, turns[0].player, turns[0].input, maxMissed);
      RunRoundKeepsPurged(TakeTurn(g, turns[0].player, turns[0].input, maxMissed), turns[1..], maxMissed, p);
    }
  }

  /** Rounds `done + 1` onwards: each sets the round number and runs. */
  function RunRounds(g: Game, schedule: seq<seq<Turn>>, maxMissed: int, done: nat): (r: Game)
    ensures |schedule| > 0 ==> r.roundNumber == done + |schedule|
    ensures |schedule| == 0 ==> r == g
    ensures r.descriptionPhaseStarted == g.descriptionPhaseStarted
    decreases |schedule|
  {
    if |schedule| == 0 then g
    else
      var g1 := RunRound(g.(roundNumber := done + 1), schedule[0], maxMissed);
      RunRounds(g1, schedule[1..], maxMissed, done + 1)
  }

  /** The number of rounds `range(settings.rounds)` runs. */
  function RoundCount(s: Settings.Settings): nat
  {
    if s.rounds > 0 then s.rounds else 0
  }

  /** The whole phase: marked started, then one round per configured round,
      each with its own turn order and outcomes. */
  function DescriptionPhase(g: Game, s: Settings.Settings, schedule: seq<seq<Turn>>): (r: Game)
    requires |schedule| == RoundCount(s)
    ensures r.descriptionPhaseStarted
    ensures s.rounds > 0 ==> r.roundNumber == s.rounds
    ensures s.rounds <= 0 ==> r == g.(descriptionPhaseStarted := true)
  {
    RunRounds(g.(descriptionPhaseStarted := true), schedule, s.maxMissedRounds, 0)
  }

  /** Across all rounds the phase keeps the roster duplicate-free, only
      shrinks it, drops only players at the missed-round limit, and leaves
      imposters, votes and the voted, kicked and left sets alone. */
  lemma {:induction false} RunRoundsEffect(g: Game, schedule: seq<seq<Turn>>, maxMissed: int, done: nat)
    requires NoDup(g.joined)
    ensures var r := RunRounds(g, schedule, maxMissed, done);
            && NoDup(r.joined)
            && (forall q :: q in r.joined ==> q in g.joined)
            && (forall q :: q in g.joined && q !in r.joined ==> MissedCount(r, q) >= maxMissed)
            && (forall q :: MissedCount(g, q) <= MissedCount(r, q))
            && r.imposters == g.imposters && r.votes == g.votes && r.voted == g.voted
            && r.kicked == g.kicked && r.left == g.left && r.started == g.started
    decreases |schedule|
  {
    if |schedule| != 0 {
      var g0 := g.(roundNumber := done + 1);
      var g1 := RunRound(g0, schedule[0], maxMissed);
      RunRoundEffect(g0, schedule[0], maxMissed);
      RunRoundsEffect(g1, schedule[1..], maxMissed, done + 1);
      var r := RunRounds(g, schedule, maxMissed, done);
      forall q | q in g.joined && q !in r.joined ensures MissedCount(r, q) >= maxMissed {
        if q in g1.joined {
        } else {
          assert MissedCount(g1, q) >= maxMissed;
        }
      }
    }
  }

  /** Two players, one round, a limit of one missed round: the player who
      never answers is dropped and the roster is left with one player,
      below a minimum of two. The phase itself does not end the game for
      that; only a later leave or kick checks the minimum. */
  lemma InactivePlayerDropped()
    ensures var s := Settings.Settings(2, 4, 1, 10, 10, 1, false, 0.25);
            var g := NewGame(7).(joined := [1, 2], started := true, imposters := {2}, word := Some("apple"));
            var r := DescriptionPhase(g, s, [[Turn(1, Submitted("red")), Turn(2, TimedOut)]]);
            && r.joined == [1]
            && DescriptionsOf(r, 1) == ["red"]
            && MissedCount(r, 2) == 1
            && r.imposters == {2}
            && BelowMinimum(r, s.minPlayers)
            && r.started
  {
    var s := Settings.Settings(2, 4, 1, 10, 10, 1, false, 0.25);
    var g := NewGame(7).(joined := [1, 2], started := true, imposters := {2}, word := Some("apple"));
    var g0 := g.(descriptionPhaseStarted := true, roundNumber := 1);
    var turns := [Turn(1, Submitted("red")), Turn(2, TimedOut)];
    var g1 := TakeTurn(g0, 1, Submitted("red"), 1);
    assert g1.joined == [1, 2];
    var g2 := TakeTurn(g1, 2, TimedOut, 1);
    assert RemoveFirst([1, 2], 2) == [1] by {
      assert [1, 2][1..] == [2];
      assert RemoveFirst([2], 2) == [];
    }
    assert g2.joined == [1];
    assert turns[1..] == [Turn(2, TimedOut)];
    assert turns[1..][1..] == [];
    assert RunRound(g0, turns, 1) == g2;
  }
}

=== FILE: game_manager.dfy ===
/** The room registry (`GameManager`): at most one game per channel. The
    source guards each operation with one lock; here every operation is a
    single sequential step, which is what the lock guarantees. */
module GameManager {
  import opened Wrappers
  import opened Roster
  import opened GameState

  /** `games` maps a channel to its game; `used` is the set of channels
      that currently have one. */
  datatype Registry = Registry(games: map<ChannelId, Game>, used: set<ChannelId>)

  /** The two structures always describe the same channels. */
  predicate Consistent(reg: Registry)
  {
    reg.games.Keys == reg.used
  }

  const Empty := Registry(map[], {})

  datatype RegistryError = AlreadyActive

  /** `can_create_game`: the channel is not in use, which on a consistent
      registry means it has no game. */
  predicate CanCreateGame(reg: Registry, c: ChannelId)
    ensures Consistent(reg) ==> (CanCreateGame(reg, c) <==> c !in reg.games)
  {
    c !in reg.used
  }

  /** `get_game`. */
  function GetGame(reg: Registry, c: ChannelId): (r: Option<Game>)
    ensures r.Some? <==> c in reg.games
    ensures Consistent(reg) ==> (r.None? <==> CanCreateGame(reg, c))
  {
    if c in reg.games then Some(reg.games[c]) else None
  }

  /** `create_game`: fails when the channel is in use, otherwise registers
      a fresh game for it. */
  function CreateGame(reg: Registry, c: ChannelId): (r: Result<(Registry, Game), RegistryError>)
    ensures r.Success? <==> CanCreateGame(reg, c)
    ensures r.Success? ==> r.value.1 == NewGame(c) && GetGame(r.value.0, c) == Some(NewGame(c))
    ensures r.Success? ==> r.value.0.used == reg.used + {c}
    ensures r.Success? ==> forall d :: d != c ==> GetGame(r.value.0, d) == GetGame(reg, d)
    ensures r.Success? && Consistent(reg) ==> Consistent(r.value.0)
  {
    if c in reg.used then Failure(AlreadyActive)
    else
      var g := NewGame(c);
      Success((Registry(reg.games[c := g], reg.used + {c}), g))
  }

  /** `end_game`: discards the channel's game and frees the channel; a
      channel without a game is left alone. */
  function EndGame(reg: Registry, c: ChannelId): (r: Registry)
    ensures c !in r.games
    ensures c in reg.games ==> c !in r.used
    ensures c !in reg.games ==> r == reg
    ensures forall d :: d != c ==> GetGame(r, d) == GetGame(reg, d) && (d in r.used <==> d in reg.used)
    ensures Consistent(reg) ==> Consistent(r) && CanCreateGame(r, c)
  {
    if c in reg.games then Registry(reg.games - {c}, reg.used - {c})
    else reg
  }

  /** `/forcequit`: every game discarded and every channel freed. */
  function ForceQuitAll(reg: Registry): (r: Registry)
    ensures Consistent(r)
    ensures forall c :: CanCreateGame(r, c) && GetGame(r, c).None?
  {
    Empty
  }

  /** Two creations in the same channel: exactly one succeeds, the second
      reports `AlreadyActive`. */
  lemma CreateTwiceFails(reg: Registry, c: ChannelId)
    requires CreateGame(reg, c).Success?
    ensures CreateGame(CreateGame(reg, c).value.0, c) == Failure(AlreadyActive)
  {
  }

  /** Creating and then ending a game in a free channel gives back the
      registry it started from. */
  lemma CreateThenEnd(reg: Registry, c: ChannelId)
    requires Consistent(reg) && CanCreateGame(reg, c)
    ensures EndGame(CreateGame(reg, c).value.0, c) == reg
  {
    var reg1 := CreateGame(reg, c).value.0;
    assert c !in reg.games;
    assert reg1.games - {c} == reg.games;
    assert reg1.used - {c} == reg.used;
  }

  /** Ending is idempotent: ending an already ended game changes nothing. */
  lemma EndGameIdempotent(reg: Registry, c: ChannelId)
    ensures EndGame(EndGame(reg, c), c) == EndGame(reg, c)
  {
  }

  datatype JoinRoomError = GameNoLongerActive | Refused(reason: JoinError)

  /** The join button as a whole: the channel must still have a game, then
      the game's own admission checks apply and the grown roster is
      stored back. */
  function JoinRoom(reg: Registry, c: ChannelId, p: PlayerId, maxPlayers: int): (r: Result<Registry, JoinRoomError>)
    ensures c !in reg.games ==> r == Failure(GameNoLongerActive)
    ensures r.Success? <==> c in reg.games && Join(reg.games[c], p, maxPlayers).Success?
    ensures r.Success? ==> r.value.used == reg.used && r.value.games.Keys == reg.games.Keys
    ensures r.Success? ==> r.value.games[c].joined == reg.games[c].joined + [p]
    ensures r.Success? ==> r.value == reg.(games := reg.games[c := Join(reg.games[c], p, maxPlayers).value])
  {
    if c !in reg.games then Failure(GameNoLongerActive)
    else
      match Join(reg.games[c], p, maxPlayers)
      case Failure(e) => Failure(Refused(e))
      case Success(g) => Success(reg.(games := reg.games[c := g]))
  }
}

=== FILE: game_state.dfy ===
/** The in-memory record of one room's game (`GameState`) and the
    operations on it that add or remove players: joining the lobby,
    starting, leaving, vote-kicking, and the single purge path
    `remove_player` that leaving and kicking go through. */
module GameState {
  import opened Wrappers
  import opened Roster

  type ChannelId = int

  /** One room's game. `votesTallied` is the one-shot latch that guards the
      tally; it starts false. Discord handles (messages, the vote task) and
      the start time are not represented. */
  datatype Game = Game(
    channel: ChannelId,
    joined: seq<PlayerId>,
    started: bool,
    imposters: set<PlayerId>,
    word: Option<string>,
    descriptionPhaseStarted: bool,
    descriptions: map<PlayerId, seq<string>>,
    votes: map<PlayerId, PlayerId>,
    missedRounds: map<PlayerId, nat>,
    roundNumber: nat,
    voted: set<PlayerId>,
    kicked: set<PlayerId>,
    left: set<PlayerId>,
    votesTallied: bool)

  /** The invariants the game operations keep: the roster has no repeated
      player, and every recorded voter is marked as having voted. */
  predicate Wf(g: Game)
  {
    NoDup(g.joined) && g.votes.Keys <= g.voted
  }

  /** A freshly created game for a channel: nobody joined, nothing started. */
  function NewGame(channel: ChannelId): (g: Game)
    ensures Wf(g)
    ensures g.channel == channel && |g.joined| == 0 && !g.started && !g.votesTallied
    ensures g.votes == map[] && g.descriptions == map[] && g.missedRounds == map[]
  {
    Game(channel, [], false, {}, None, false, map[], map[], map[], 0, {}, {}, {}, false)
  }

  /** Nothing that a later read could find still mentions `p`: not the
      roster, the imposters, the descriptions, the missed-round counts, the
      voted set, nor any vote cast by or for `p`. */
  predicate Purged(g: Game, p: PlayerId)
  {
    && p !in g.joined
    && p !in g.imposters
    && p !in g.descriptions
    && p !in g.votes
    && p !in g.votes.Values
    && p !in g.missedRounds
    && p !in g.voted
  }

  /** Player `q`'s imposter flag, descriptions, missed-round count and voted
      flag are the same in `g` and `r`. */
  predicate KeepsRecordOf(g: Game, r: Game, q: PlayerId)
  {
    && (q in r.imposters <==> q in g.imposters)
    && (q in r.descriptions <==> q in g.descriptions)
    && (q in r.descriptions ==> r.descriptions[q] == g.descriptions[q])
    && (q in r.missedRounds <==> q in g.missedRounds)
    && (q in r.missedRounds ==> r.missedRounds[q] == g.missedRounds[q])
    && (q in r.voted <==> q in g.voted)
  }

  /** The fields that no player removal touches. */
  predicate SameLifecycle(g: Game, r: Game)
  {
    && r.channel == g.channel
    && r.started == g.started
    && r.word == g.word
    && r.descriptionPhaseStarted == g.descriptionPhaseStarted
    && r.roundNumber == g.roundNumber
    && r.votesTallied == g.votesTallied
  }

  /** `remove_player`: strips `p` from the roster, the imposters, the
      descriptions, the missed-round counts and the voted set, drops `p`'s
      own vote and then every vote cast for `p`. */
  function RemovePlayer(g: Game, p: PlayerId): (r: Game)
    ensures NoDup(g.joined) ==> Purged(r, p) && r.joined == Without(g.joined, p)
    ensures NoDup(g.joined) ==> NoDup(r.joined)
    ensures SameLifecycle(g, r) && r.kicked == g.kicked && r.left == g.left
  {
    var joined := if p in g.joined then RemoveFirst(g.joined, p) else g.joined;
    var votes := g.votes - {p};
    var r := g.(joined := joined,
                imposters := g.imposters - {p},
                descriptions := g.descriptions - {p},
                votes := map v | v in votes && votes[v] != p :: votes[v],
                missedRounds := g.missedRounds - {p},
                voted := g.voted - {p});
    if NoDup(g.joined) then
      RemoveFirstOfDistinct(g.joined, p);
      RemoveFirstKeepsNoDup(g.joined, p);
      r
    else
      r
  }

  /** Removal leaves every other player's record alone and drops exactly
      the votes cast by or for the removed player. */
  lemma RemovePlayerKeepsOthers(g: Game, p: PlayerId)
    ensures forall q :: q != p ==> KeepsRecordOf(g, RemovePlayer(g, p), q)
    ensures forall v :: v in RemovePlayer(g, p).votes <==> v in g.votes && v != p && g.votes[v] != p
    ensures forall v :: v in RemovePlayer(g, p).votes ==> RemovePlayer(g, p).votes[v] == g.votes[v]
  {
  }

  /** Removal keeps the record well formed. */
  lemma RemovePlayerKeepsWf(g: Game, p: PlayerId)
    requires Wf(g)
    ensures Wf(RemovePlayer(g, p))
  {
    RemoveFirstKeepsNoDup(g.joined, p);
  }

  /** Removing a player twice is the same as removing them once. */
  lemma RemovePlayerIdempotent(g: Game, p: PlayerId)
    requires NoDup(g.joined)
    ensures RemovePlayer(RemovePlayer(g, p), p) == RemovePlayer(g, p)
  {
    var r := RemovePlayer(g, p);
    var r2 := RemovePlayer(r, p);
    assert r2.votes == r.votes;
    assert r2.joined == r.joined;
  }

  /** Removing one player never brings back another, already purged one. */
  lemma RemovePlayerKeepsPurged(g: Game, p: PlayerId, q: PlayerId)
    requires Purged(g, p)
    ensures Purged(RemovePlayer(g, q), p)
  {
  }

  /** The players in `ps` removed one after another, as a sequence of
      leaves and kicks does. */
  function RemoveAll(g: Game, ps: seq<PlayerId>): Game
    decreases |ps|
  {
    if |ps| == 0 then g else RemoveAll(RemovePlayer(g, ps[0]), ps[1..])
  }

  /** After any sequence of removals every removed player is purged, and
      the record stays well formed. */
  lemma {:induction false} RemoveAllPurges(g: Game, ps: seq<PlayerId>)
    requires Wf(g)
    ensures Wf(RemoveAll(g, ps))
    ensures forall p :: p in ps ==> Purged(RemoveAll(g, ps), p)
    decreases |ps|
  {
    if |ps| != 0 {
      var g1 := RemovePlayer(g, ps[0]);
      RemovePlayerKeepsWf(g, ps[0]);
      RemoveAllPurges(g1, ps[1..]);
      RemoveAllKeepsPurged(g1, ps[1..], ps[0]);
      forall p | p in ps ensures Purged(RemoveAll(g, ps), p) {
        if p != ps[0] {
          assert p in ps[1..];
        }
      }
    }
  }

  /** A purged player stays purged through any further removals. */
  lemma {:induction false} RemoveAllKeepsPurged(g: Game, ps: seq<PlayerId>, p: PlayerId)
    requires Purged(g, p)
    ensures Purged(RemoveAll(g, ps), p)
    decreases |ps|
  {
    if |ps| != 0 {
      RemovePlayerKeepsPurged(g, p, ps[0]);
      RemoveAllKeepsPurged(RemovePlayer(g, ps[0]), ps[1..], p);
    }
  }

  datatype JoinError = AlreadyStarted | GameFull | AlreadyJoined

  /** The "Join Game" button: refused once the game has started, when the
      roster already holds `maxPlayers` players, or when `p` has already
      joined (checked in that order); otherwise `p` is appended. */
  function Join(g: Game, p: PlayerId, maxPlayers: int): (r: Result<Game, JoinError>)
    ensures r.Success? <==> !g.started && |g.joined| < maxPlayers && p !in g.joined
    ensures g.started ==> r == Failure(AlreadyStarted)
    ensures !g.started && |g.joined| >= maxPlayers ==> r == Failure(GameFull)
    ensures r.Success? ==> r.value.joined == g.joined + [p] && r.value == g.(joined := r.value.joined)
    ensures r.Success? && Wf(g) ==> Wf(r.value) && |r.value.joined| <= maxPlayers
  {
    if g.started then Failure(AlreadyStarted)
    else if |g.joined| >= maxPlayers then Failure(GameFull)
    else if p in g.joined then Failure(AlreadyJoined)
    else
      var r := g.(joined := g.joined + [p]);
      if NoDup(g.joined) then
        AppendFreshKeepsNoDup(g.joined, p);
        Success(r)
      else
        Success(r)
  }

  datatype StartError = NotEnoughPlayers | StartedAlready

  /** The "Start Game" button followed by `start_game`: refused below the
      minimum roster size, then when already started; otherwise the game is
      marked started with the sampled imposters and the drawn word. The
      sample and the word are inputs (the source draws them at random).
      `start_game` marks the game started before it draws either, so a draw
      that raises (an empty word list) leaves a started game with the
      sample but no word: that is the `None` word. */
  function Start(g: Game, minPlayers: int, chosen: set<PlayerId>, word: Option<string>): (r: Result<Game, StartError>)
    requires forall c :: c in chosen ==> c in g.joined
    ensures r.Success? <==> |g.joined| >= minPlayers && !g.started
    ensures |g.joined| < minPlayers ==> r == Failure(NotEnoughPlayers)
    ensures r.Success? ==> r.value == g.(started := true, imposters := chosen, word := word)
    ensures r.Success? ==> forall c :: c in r.value.imposters ==> c in r.value.joined
    ensures r.Success? && Wf(g) ==> Wf(r.value)
  {
    if |g.joined| < minPlayers then Failure(NotEnoughPlayers)
    else if g.started then Failure(StartedAlready)
    else Success(g.(started := true, imposters := chosen, word := word))
  }

  /** Whether the roster has fallen below the configured minimum, which
      ends the game after a leave or a kick. */
  predicate BelowMinimum(g: Game, minPlayers: int)
  {
    |g.joined| < minPlayers
  }

  /** `reset`, which `end_game` runs on the game it discards: `__init__`
      runs again on the same object, which view buttons may still hold.
      The tally latch is not among the attributes `__init__` assigns, so it
      keeps its value. The channel id is kept here; the source clears it,
      and the only later reads of it are lookups that then find nothing. */
  function Reset(g: Game): (r: Game)
    ensures Wf(r) && r.joined == [] && !r.started && r.votes == map[]
    ensures r.votesTallied == g.votesTallied
  {
    NewGame(g.channel).(votesTallied := g.votesTallied)
  }

  datatype LeaveError = NotInGame | AlreadyLeft

  /** `/leave`: refused unless `p` is on the roster and has not left before;
      otherwise `p` is purged and recorded as having left. */
  function Leave(g: Game, p: PlayerId): (r: Result<Game, LeaveError>)
    ensures r.Success? <==> p in g.joined && p !in g.left
    ensures p !in g.joined ==> r == Failure(NotInGame)
    ensures r.Success? && NoDup(g.joined) ==> Purged(r.value, p) && p in r.value.left
    ensures r.Success? ==> r.value.left == g.left + {p} && r.value.kicked == g.kicked
    ensures r.Success? ==> r.value.(left := g.left) == RemovePlayer(g, p)
    ensures r.Success? && Wf(g) ==> Wf(r.value)
  {
    if p !in g.joined then Failure(NotInGame)
    else if p in g.left then Failure(AlreadyLeft)
    else
      RemovePlayerKeepsOthers(g, p);
      Success(RemovePlayer(g, p).(left := g.left + {p}))
  }

  /** The left set is never cleared by a later join, so a player who leaves
      the lobby and joins again is on the roster and in the left set at
      once, and a second `/leave` is then refused. */
  lemma RejoinAfterLeaveCannotLeave()
    ensures var g0 := NewGame(1);
            var g1 := Join(g0, 5, 10).value;
            var g2 := Leave(g1, 5).value;
            var g3 := Join(g2, 5, 10).value;
            5 in g3.joined && 5 in g3.left && Leave(g3, 5) == Failure(AlreadyLeft)
  {
    var g0 := NewGame(1);
    var g1 := Join(g0, 5, 10).value;
    assert g1.joined == [5];
    var g2 := Leave(g1, 5).value;
    assert g2.joined == [];
  }

  /** The number of ballots a vote-kick needs: half the roster, rounded
      down, and never fewer than two. */
  function RequiredKickVotes(rosterSize: nat): (n: nat)
    ensures n >= 2 && n >= rosterSize / 2
    ensures n == 2 || n == rosterSize / 2
  {
    if rosterSize / 2 > 2 then rosterSize / 2 else 2
  }

  /** An open vote-kick on `target`; `required` is fixed when it opens. */
  datatype KickPoll = KickPoll(target: PlayerId, ballots: set<PlayerId>, required: nat)

  datatype KickError = NoActiveGame | TargetNotInGame | VoterNotInGame | AlreadyVotedToKick | AlreadyKicked

  /** `/votekick`: needs a started game, a target on the roster and an
      initiator on the roster; the poll opens with no ballots. */
  function OpenKickPoll(g: Game, initiator: PlayerId, target: PlayerId): (r: Result<KickPoll, KickError>)
    ensures r.Success? <==> g.started && target in g.joined && initiator in g.joined
    ensures r.Success? ==> r.value.target == target && r.value.ballots == {}
    ensures r.Success? ==> r.value.required == RequiredKickVotes(|g.joined|)
  {
    if !g.started then Failure(NoActiveGame)
    else if target !in g.joined then Failure(TargetNotInGame)
    else if initiator !in g.joined then Failure(VoterNotInGame)
    else Success(KickPoll(target, {}, RequiredKickVotes(|g.joined|)))
  }

  /** Purges the target and records the kick. */
  function Kick(g: Game, target: PlayerId): (r: Game)
    ensures NoDup(g.joined) ==> Purged(r, target)
    ensures target in r.kicked && r.left == g.left
    ensures r.(kicked := g.kicked) == RemovePlayer(g, target)
    ensures Wf(g) ==> Wf(r)
  {
    RemovePlayerKeepsOthers(g, target);
    RemovePlayer(g, target).(kicked := g.kicked + {target})
  }

  /** The "Vote to Kick" button: refused for a voter off the roster, a
      repeated ballot, or a target already kicked; otherwise the ballot is
      recorded and, once the ballots reach the required number, the target
      is kicked. */
  function CastKickBallot(g: Game, poll: KickPoll, voter: PlayerId): (r: Result<(Game, KickPoll), KickError>)
    ensures r.Success? <==> voter in g.joined && voter !in poll.ballots && poll.target !in g.kicked
    ensures r.Success? ==> r.value.1 == poll.(ballots := poll.ballots + {voter})
    ensures r.Success? ==> (poll.target in r.value.0.kicked <==> |r.value.1.ballots| >= poll.required)
    ensures r.Success? && |r.value.1.ballots| < poll.required ==> r.value.0 == g
    ensures r.Success? && |r.value.1.ballots| >= poll.required ==> r.value.0 == Kick(g, poll.target)
    ensures r.Success? && NoDup(g.joined) && |r.value.1.ballots| >= poll.required ==> Purged(r.value.0, poll.target)
  {
    if voter !in g.joined then Failure(VoterNotInGame)
    else if voter in poll.ballots then Failure(AlreadyVotedToKick)
    else if poll.target in g.kicked then Failure(AlreadyKicked)
    else
      var poll' := poll.(ballots := poll.ballots + {voter});
      if poll.required - |poll'.ballots| <= 0 then Success((Kick(g, poll.target), poll'))
      else Success((g, poll'))
  }

  /** A kick through a poll needs at least two distinct ballots, whatever
      the roster size was when the poll opened. */
  lemma KickNeedsTwoBallots(g: Game, poll: KickPoll, voter: PlayerId, openedOn: nat)
    requires poll.required == RequiredKickVotes(openedOn)
    requires CastKickBallot(g, poll, voter).Success?
    requires poll.target in CastKickBallot(g, poll, voter).value.0.kicked
    ensures |CastKickBallot(g, poll, voter).value.1.ballots| >= 2
  {
  }
}

=== FILE: room.dfy ===
/** The game operations that reach back into the registry: a tally, a
    `/leave` and a completing vote-kick ballot all call `end_game` on the
    channel, the first always and the other two when the roster drops below
    the configured minimum. */
module Room {
  import opened Wrappers
  import opened Roster
  import opened GameState
  import opened GameManager
  import opened Voting

  /** `tally_votes` on the game registered for channel `c`. With the latch
      open it announces the verdict, a "no votes" verdict included, and
      ends the game, freeing the channel; with the latch closed nothing
      happens. */
  function TallyInRoom(reg: Registry, c: ChannelId): (r: (Registry, Option<Verdict>))
    ensures r.1.Some? <==> c in reg.games && !reg.games[c].votesTallied
    ensures r.1.Some? ==> r.1.value == Decide(reg.games[c]) && c !in r.0.games && c !in r.0.used
    ensures r.1.Some? && |reg.games[c].votes| == 0 ==> r.1.value == NoVotesCast
    ensures r.1.None? ==> r.0 == reg
    ensures forall d :: d != c ==> GetGame(r.0, d) == GetGame(reg, d)
    ensures Consistent(reg) ==> Consistent(r.0)
  {
    if c !in reg.games then (reg, None)
    else
      var (_, v) := Tally(reg.games[c]);
      if v.Some? then (EndGame(reg, c), v) else (reg, None)
  }

  datatype RoomLeaveError = NoGameFound | LeaveRefused(reason: LeaveError)

  /** `/leave` as a whole: the channel must have a game, the game's own
      checks apply, and a roster left below the minimum ends the game. */
  function LeaveRoom(reg: Registry, c: ChannelId, p: PlayerId, minPlayers: int): (r: Result<Registry, RoomLeaveError>)
    ensures c !in reg.games ==> r == Failure(NoGameFound)
    ensures r.Success? <==> c in reg.games && Leave(reg.games[c], p).Success?
    ensures r.Success? && BelowMinimum(Leave(reg.games[c], p).value, minPlayers) ==>
              c !in r.value.games && c !in r.value.used
    ensures r.Success? && !BelowMinimum(Leave(reg.games[c], p).value, minPlayers) ==>
              GetGame(r.value, c) == Some(Leave(reg.games[c], p).value) && r.value.used == reg.used
    ensures r.Success? ==> forall d :: d != c ==> GetGame(r.value, d) == GetGame(reg, d)
    ensures r.Success? && Consistent(reg) ==> Consistent(r.value)
  {
    if c !in reg.games then Failure(NoGameFound)
    else
      match Leave(reg.games[c], p)
      case Failure(e) => Failure(LeaveRefused(e))
      case Success(g) =>
        var reg1 := reg.(games := reg.games[c := g]);
        if BelowMinimum(g, minPlayers) then Success(EndGame(reg1, c)) else Success(reg1)
  }

  /** A "Vote to Kick" ballot on the game registered for `c`. When the
      ballot completes the kick and the roster drops below the minimum the
      game ends. A channel with no game stands for a view holding a reset
      game, whose empty roster refuses the voter. */
  function KickBallotInRoom(reg: Registry, c: ChannelId, poll: KickPoll, voter: PlayerId, minPlayers: int)
    : (r: Result<(Registry, KickPoll), KickError>)
    ensures c !in reg.games ==> r == Failure(VoterNotInGame)
    ensures r.Success? <==> c in reg.games && CastKickBallot(reg.games[c], poll, voter).Success?
    ensures r.Success? ==> r.value.1 == CastKickBallot(reg.games[c], poll, voter).value.1
    ensures r.Success? && |r.value.1.ballots| >= poll.required && BelowMinimum(Kick(reg.games[c], poll.target), minPlayers) ==>
              c !in r.value.0.games && c !in r.value.0.used
    ensures r.Success? && |r.value.1.ballots| < poll.required ==> r.value.0 == reg
    ensures r.Success? && !BelowMinimum(CastKickBallot(reg.games[c], poll, voter).value.0, minPlayers) ==>
              GetGame(r.value.0, c) == Some(CastKickBallot(reg.games[c], poll, voter).value.0)
    ensures r.Success? ==> forall d :: d != c ==> GetGame(r.value.0, d) == GetGame(reg, d)
    ensures r.Success? && Consistent(reg) ==> Consistent(r.value.0)
  {
    if c !in reg.games then Failure(VoterNotInGame)
    else
      match CastKickBallot(reg.games[c], poll, voter)
      case Failure(e) => Failure(e)
      case Success((g, poll')) =>
        if |poll'.ballots| < poll.required then Success((reg, poll'))
        else
          var reg1 := reg.(games := reg.games[c := g]);
          if BelowMinimum(g, minPlayers) then Success((EndGame(reg1, c), poll')) else Success((reg1, poll'))
  }

  /** After a verdict the channel has no game: a second tally announces
      nothing, `/leave` finds no game, and a new game can be created. */
  lemma NothingAfterVerdict(reg: Registry, c: ChannelId, p: PlayerId, minPlayers: int)
    requires Consistent(reg)
    requires TallyInRoom(reg, c).1.Some?
    ensures var reg' := TallyInRoom(reg, c).0;
            && TallyInRoom(reg', c) == (reg', None)
            && LeaveRoom(reg', c, p, minPlayers) == Failure(NoGameFound)
            && CanCreateGame(reg', c)
  {
  }

  /** Two players, a minimum of two: when one leaves, the game ends and the
      channel is free again. */
  lemma LeaveBelowMinimumEndsGame()
    ensures var g := NewGame(7).(joined := [1, 2], started := true);
            var reg := Registry(map[7 := g], {7});
            var r := LeaveRoom(reg, 7, 1, 2);
            r.Success? && r.value == Empty
  {
    var g := NewGame(7).(joined := [1, 2], started := true);
    assert Leave(g, 1).value.joined == [2];
  }
}

=== FILE: roster.dfy ===
/** The roster of a game is a Python list of player ids in join order.
    This module models the two list operations the game applies to it:
    `list.remove`, which drops the FIRST occurrence of a value, and the
    order-preserving filter that a complete purge of a value would be. */
module Roster {

  /** Discord user ids. */
  type PlayerId = int

  /** No player id occurs twice. */
  predicate NoDup(s: seq<PlayerId>)
  {
    forall i, j :: 0 <= i < j < |s| ==> s[i] != s[j]
  }

  /** Python's `s.remove(x)`: the first occurrence of `x` is dropped.
      Python raises `ValueError` on an absent value; this total version
      returns `s` unchanged instead. Each call site either checks
      membership first (`remove_player`) or models the raise as a failure
      of its own (`CompleteTurnAsWritten`). */
  function RemoveFirst(s: seq<PlayerId>, x: PlayerId): (r: seq<PlayerId>)
    ensures x in s ==> |r| == |s| - 1
    ensures x !in s ==> r == s
    ensures multiset(r) == multiset(s) - multiset{x}
    ensures forall y :: y in r ==> y in s
    ensures forall y :: y != x ==> (y in r <==> y in s)
  {
    if |s| == 0 then []
    else if s[0] == x then
      assert s == [s[0]] + s[1..];
      s[1..]
    else
      assert s == [s[0]] + s[1..];
      [s[0]] + RemoveFirst(s[1..], x)
  }

  /** Every occurrence of `x` dropped, the others kept in their order. */
  function Without(s: seq<PlayerId>, x: PlayerId): (r: seq<PlayerId>)
    ensures x !in r
    ensures forall y :: y != x ==> (y in r <==> y in s)
    ensures |r| <= |s|
  {
    if |s| == 0 then []
    else if s[0] == x then Without(s[1..], x)
    else [s[0]] + Without(s[1..], x)
  }

  /** On a duplicate-free list, `list.remove` is the order-preserving purge:
      the other players keep their relative order and `x` is gone. */
  lemma {:induction false} RemoveFirstOfDistinct(s: seq<PlayerId>, x: PlayerId)
    requires NoDup(s)
    ensures RemoveFirst(s, x) == Without(s, x)
    ensures x !in RemoveFirst(s, x)
  {
    if |s| != 0 {
      NoDupCons(s);
      RemoveFirstOfDistinct(s[1..], x);
      if s[0] == x {
        WithoutAbsent(s[1..], x);
      }
    }
  }

  /** Filtering out a value that is absent changes nothing. */
  lemma {:induction false} WithoutAbsent(s: seq<PlayerId>, x: PlayerId)
    requires x !in s
    ensures Without(s, x) == s
  {
    if |s| != 0 {
      assert s == [s[0]] + s[1..];
      WithoutAbsent(s[1..], x);
    }
  }

  /** A list with a head is duplicate-free exactly when its head is not
      repeated in its tail and the tail is duplicate-free. */
  lemma NoDupCons(s: seq<PlayerId>)
    requires |s| > 0
    ensures NoDup(s) <==> s[0] !in s[1..] && NoDup(s[1..])
  {
    if NoDup(s) {
      forall k | 0 <= k < |s[1..]| ensures s[1..][k] != s[0] {
        assert s[1..][k] == s[k + 1];
      }
      forall i, j | 0 <= i < j < |s[1..]| ensures s[1..][i] != s[1..][j] {
        assert s[1..][i] == s[i + 1] && s[1..][j] == s[j + 1];
      }
    }
    if s[0] !in s[1..] && NoDup(s[1..]) {
      forall i, j | 0 <= i < j < |s| ensures s[i] != s[j] {
        assert s[j] == s[1..][j - 1];
        if i > 0 {
          assert s[i] == s[1..][i - 1];
        }
      }
    }
  }

  /** Removing an element keeps a duplicate-free list duplicate-free. */
  lemma {:induction false} RemoveFirstKeepsNoDup(s: seq<PlayerId>, x: PlayerId)
    requires NoDup(s)
    ensures NoDup(RemoveFirst(s, x))
  {
    if |s| != 0 {
      NoDupCons(s);
      if s[0] != x {
        RemoveFirstKeepsNoDup(s[1..], x);
        var r := RemoveFirst(s, x);
        assert r == [s[0]] + RemoveFirst(s[1..], x);
        assert r[1..] == RemoveFirst(s[1..], x);
        NoDupCons(r);
      }
    }
  }

  /** Appending an absent element keeps a list duplicate-free. */
  lemma AppendFreshKeepsNoDup(s: seq<PlayerId>, x: PlayerId)
    requires NoDup(s) && x !in s
    ensures NoDup(s + [x])
  {
    var r := s + [x];
    forall i, j | 0 <= i < j < |r| ensures r[i] != r[j] {
      if j == |s| {
        assert r[i] == s[i];
      } else {
        assert r[i] == s[i] && r[j] == s[j];
      }
    }
  }

  /** Why the roster must stay duplicate-free: on a list holding `x` twice,
      one `list.remove` leaves the second copy behind. */
  lemma RemoveFirstLeavesDuplicate()
    ensures RemoveFirst([7, 7], 7) == [7]
  {
    assert [7, 7][1..] == [7];
  }
}

=== FILE: settings.dfy ===
/** Per-server game settings (`ServerSettings`) and the validated partial
    update that `ServerConfig.update_server_settings` performs. The JSON
    file behind the store is replaced by an in-memory map and a flag saying
    whether writing it succeeded. */
module Settings {
  import opened Wrappers

  type ServerId = string

  datatype Settings = Settings(
    minPlayers: int,
    maxPlayers: int,
    rounds: int,
    descriptionTimeout: int,
    voteTimeout: int,
    maxMissedRounds: int,
    multipleImposters: bool,
    imposterRatio: real)

  /** The dataclass defaults. */
  const Default := Settings(1, 10, 3, 60, 120, 2, false, 0.25)

  /** Shortest allowed timeout, in seconds. */
  const MinTimeout := 10

  /** What validation guards: the player bounds are ordered and both
      timeouts are at least the floor. */
  predicate Valid(s: Settings)
  {
    s.minPlayers <= s.maxPlayers
    && s.descriptionTimeout >= MinTimeout
    && s.voteTimeout >= MinTimeout
  }

  /** The keyword arguments of an update: a field is present or absent.
      Keys that name no setting are ignored by the source and so are not
      represented here. */
  datatype SettingsUpdate = SettingsUpdate(
    minPlayers: Option<int>,
    maxPlayers: Option<int>,
    rounds: Option<int>,
    descriptionTimeout: Option<int>,
    voteTimeout: Option<int>,
    maxMissedRounds: Option<int>,
    multipleImposters: Option<bool>,
    imposterRatio: Option<real>)

  datatype SettingsError =
    | MinAboveMax
    | MinAboveCurrentMax
    | MaxBelowCurrentMin
    | DescriptionTimeoutTooShort
    | VoteTimeoutTooShort
    | SaveFailed

  function Or<T>(o: Option<T>, d: T): T
  {
    match o
    case Some(v) => v
    case None => d
  }

  /** The first validation check the update fails against the current
      settings `s`, if any. The player-bound checks are one if/elif chain:
      when both bounds are given only their mutual order is checked. */
  function Check(s: Settings, u: SettingsUpdate): (e: Option<SettingsError>)
    ensures e != Some(SaveFailed)
    ensures e == Some(DescriptionTimeoutTooShort) || e == Some(VoteTimeoutTooShort) ==> PlayerBoundsOk(s, u)
    ensures e == Some(VoteTimeoutTooShort) ==> TimeoutOk(u.descriptionTimeout)
  {
    if u.minPlayers.Some? && u.maxPlayers.Some? && u.minPlayers.value > u.maxPlayers.value then Some(MinAboveMax)
    else if !(u.minPlayers.Some? && u.maxPlayers.Some?) && u.minPlayers.Some? && u.minPlayers.value > s.maxPlayers then Some(MinAboveCurrentMax)
    else if !(u.minPlayers.Some? && u.maxPlayers.Some?) && u.minPlayers.None? && u.maxPlayers.Some? && u.maxPlayers.value < s.minPlayers then Some(MaxBelowCurrentMin)
    else if u.descriptionTimeout.Some? && u.descriptionTimeout.value < MinTimeout then Some(DescriptionTimeoutTooShort)
    else if u.voteTimeout.Some? && u.voteTimeout.value < MinTimeout then Some(VoteTimeoutTooShort)
    else None
  }

  /** An independent statement of the guards: the player bounds are
      ordered and every given timeout meets the floor. */
  predicate PassesGuards(s: Settings, u: SettingsUpdate)
  {
    PlayerBoundsOk(s, u) && TimeoutOk(u.descriptionTimeout) && TimeoutOk(u.voteTimeout)
  }

  /** A given player bound respects its partner: the given one when both
      are given, the current one otherwise. */
  predicate PlayerBoundsOk(s: Settings, u: SettingsUpdate)
  {
    && (u.minPlayers.Some? ==> u.minPlayers.value <= Or(u.maxPlayers, s.maxPlayers))
    && (u.maxPlayers.Some? ==> Or(u.minPlayers, s.minPlayers) <= u.maxPlayers.value)
  }

  /** A given timeout is at least the floor. */
  predicate TimeoutOk(t: Option<int>)
  {
    t.Some? ==> t.value >= MinTimeout
  }

  /** Every given field overwrites the current one. */
  function Apply(s: Settings, u: SettingsUpdate): (r: Settings)
    ensures u == SettingsUpdate(None, None, None, None, None, None, None, None) ==> r == s
    ensures u.minPlayers.Some? ==> r.minPlayers == u.minPlayers.value
    ensures u.minPlayers.None? ==> r.minPlayers == s.minPlayers
    ensures u.maxPlayers.Some? ==> r.maxPlayers == u.maxPlayers.value
    ensures u.maxPlayers.None? ==> r.maxPlayers == s.maxPlayers
    ensures u.rounds.Some? ==> r.rounds == u.rounds.value
    ensures u.rounds.None? ==> r.rounds == s.rounds
    ensures u.descriptionTimeout.Some? ==> r.descriptionTimeout == u.descriptionTimeout.value
    ensures u.descriptionTimeout.None? ==> r.descriptionTimeout == s.descriptionTimeout
    ensures u.voteTimeout.Some? ==> r.voteTimeout == u.voteTimeout.value
    ensures u.voteTimeout.None? ==> r.voteTimeout == s.voteTimeout
    ensures u.maxMissedRounds.Some? ==> r.maxMissedRounds == u.maxMissedRounds.value
    ensures u.maxMissedRounds.None? ==> r.maxMissedRounds == s.maxMissedRounds
    ensures u.multipleImposters.Some? ==> r.multipleImposters == u.multipleImposters.value
    ensures u.multipleImposters.None? ==> r.multipleImposters == s.multipleImposters
    ensures u.imposterRatio.Some? ==> r.imposterRatio == u.imposterRatio.value
    ensures u.imposterRatio.None? ==> r.imposterRatio == s.imposterRatio
  {
    Settings(
      Or(u.minPlayers, s.minPlayers),
      Or(u.maxPlayers, s.maxPlayers),
      Or(u.rounds, s.rounds),
      Or(u.descriptionTimeout, s.descriptionTimeout),
      Or(u.voteTimeout, s.voteTimeout),
      Or(u.maxMissedRounds, s.maxMissedRounds),
      Or(u.multipleImposters, s.multipleImposters),
      Or(u.imposterRatio, s.imposterRatio))
  }

  /** Applying the same update twice is the same as applying it once. */
  lemma ApplyIdempotent(s: Settings, u: SettingsUpdate)
    ensures Apply(Apply(s, u), u) == Apply(s, u)
  {
  }

  /** Validation accepts an update exactly when it passes the guards, and
      an accepted update of valid settings leaves them valid, in particular
      with `minPlayers <= maxPlayers`. */
  lemma CheckMatchesGuards(s: Settings, u: SettingsUpdate)
    ensures Check(s, u) == None <==> PassesGuards(s, u)
    ensures Valid(s) && Check(s, u) == None ==> Valid(Apply(s, u))
  {
  }

  /** `get_settings`: an empty server id yields fresh defaults that are not
      stored; an unknown id gets defaults stored for it. */
  function GetSettings(store: map<ServerId, Settings>, id: ServerId): (r: (Settings, map<ServerId, Settings>))
    ensures id != "" ==> id in r.1 && r.1[id] == r.0
    ensures id != "" && id in store ==> r == (store[id], store)
    ensures id == "" || id !in store ==> r.0 == Default
    ensures id == "" ==> r.1 == store
    ensures r.1.Keys == store.Keys + (if id == "" then {} else {id})
    ensures forall k :: k in store ==> k in r.1 && r.1[k] == store[k]
  {
    if id == "" then (Default, store)
    else if id in store then (store[id], store)
    else (Default, store[id := Default])
  }

  /** `update_server_settings`. A rejected update leaves the server's
      settings as they were. An accepted one is applied to the stored
      settings before the file is written, so when the write fails the call
      reports failure yet the change is kept in memory. */
  function UpdateServerSettings(store: map<ServerId, Settings>, id: ServerId, u: SettingsUpdate, saveOk: bool)
    : (r: (map<ServerId, Settings>, Result<(), SettingsError>))
    ensures id != "" ==> id in r.0
    ensures Check(GetSettings(store, id).0, u).Some? ==>
              r.0 == GetSettings(store, id).1 && r.1 == Failure(Check(GetSettings(store, id).0, u).value)
    ensures r.1.Success? <==> saveOk && Check(GetSettings(store, id).0, u) == None
    ensures r.1.Success? && id != "" ==> r.0[id] == Apply(GetSettings(store, id).0, u)
    ensures Check(GetSettings(store, id).0, u) == None && !saveOk ==>
              r.1 == Failure(SaveFailed) && (id != "" ==> r.0[id] == Apply(GetSettings(store, id).0, u))
    ensures r.0.Keys == GetSettings(store, id).1.Keys
    ensures forall k :: k in store && k != id ==> k in r.0 && r.0[k] == store[k]
  {
    var (current, store1) := GetSettings(store, id);
    match Check(current, u)
    case Some(e) => (store1, Failure(e))
    case None =>
      var store2 := if id == "" then store1 else store1[id := Apply(current, u)];
      if saveOk then (store2, Success(())) else (store2, Failure(SaveFailed))
  }

  /** Stored settings that are valid stay valid under every update
      attempt, accepted, rejected, or accepted in memory with a failed save. */
  lemma UpdateKeepsStoreValid(store: map<ServerId, Settings>, id: ServerId, u: SettingsUpdate, saveOk: bool)
    requires forall k :: k in store ==> Valid(store[k])
    ensures var r := UpdateServerSettings(store, id, u, saveOk);
            forall k :: k in r.0 ==> Valid(r.0[k])
  {
    var (current, store1) := GetSettings(store, id);
    assert Valid(current);
    CheckMatchesGuards(current, u);
  }

  /** Setting a minimum of 5 while the maximum is 3 is refused and changes
      nothing. */
  lemma MinAboveCurrentMaxRejected(store: map<ServerId, Settings>)
    requires "guild" in store && store["guild"].maxPlayers == 3
    ensures var u := SettingsUpdate(Some(5), None, None, None, None, None, None, None);
            UpdateServerSettings(store, "guild", u, true) == (store, Failure(MinAboveCurrentMax))
  {
  }
}

=== FILE: voting.dfy ===
/** The voting phase: one vote per roster member cast through the ballot
    dropdown, an early tally once everyone has voted, the timed auto-tally
    task, and `tally_votes` with its one-shot `votes_tallied` latch. */
module Voting {
  import opened Wrappers
  import opened Roster
  import opened GameState
  import opened Collections

  datatype VoteError = NotPartOfGame | AlreadyVoted

  /** The dropdown callback: a voter off the roster, or one who already has
      a vote, is refused; otherwise the vote is recorded and the voter is
      marked as voted. The flag says whether every roster member has now
      voted, which triggers the early tally. The target is whatever option
      the ballot offered and is not checked against the current roster. */
  function CastVote(g: Game, voter: PlayerId, target: PlayerId): (r: Result<(Game, bool), VoteError>)
    ensures r.Success? <==> voter in g.joined && voter !in g.votes
    ensures voter !in g.joined ==> r == Failure(NotPartOfGame)
    ensures r.Success? ==> voter in r.value.0.votes && r.value.0.votes[voter] == target
    ensures r.Success? ==> |r.value.0.votes| == |g.votes| + 1
    ensures r.Success? ==> forall v :: v != voter ==> (v in r.value.0.votes <==> v in g.votes)
    ensures r.Success? ==> forall v :: v in g.votes ==> r.value.0.votes[v] == g.votes[v]
    ensures r.Success? ==> r.value.0.voted == g.voted + {voter}
    ensures r.Success? ==> r.value.0 == g.(votes := r.value.0.votes, voted := r.value.0.voted)
    ensures r.Success? ==> (r.value.1 <==> |r.value.0.votes| == |g.joined|)
    ensures r.Success? && Wf(g) ==> Wf(r.value.0)
  {
    if voter !in g.joined then Failure(NotPartOfGame)
    else if voter in g.votes then Failure(AlreadyVoted)
    else
      var g1 := g.(votes := g.votes[voter := target], voted := g.voted + {voter});
      Success((g1, |g1.votes| == |g1.joined|))
  }

  /** The voters among `voters` whose vote names `t`. */
  function Ballots(votes: map<PlayerId, PlayerId>, voters: set<PlayerId>, t: PlayerId): set<PlayerId>
  {
    set v | v in voters && v in votes && votes[v] == t
  }

  /** The number of votes cast for `t`. */
  function VotesFor(votes: map<PlayerId, PlayerId>, t: PlayerId): nat
  {
    |Ballots(votes, votes.Keys, t)|
  }

  /** `t` received votes, and more of them than any other target. */
  predicate StrictLeader(votes: map<PlayerId, PlayerId>, t: PlayerId)
  {
    VotesFor(votes, t) > 0
    && forall v :: v in votes && votes[v] != t ==> VotesFor(votes, votes[v]) < VotesFor(votes, t)
  }

  /** The players win: a single target holds the strict maximum and that
      target is an imposter. */
  predicate ImposterCaught(votes: map<PlayerId, PlayerId>, imposters: set<PlayerId>)
  {
    exists t :: t in imposters && StrictLeader(votes, t)
  }

  datatype Winner = Players | Imposters

  /** A tally's announcement: either that no votes were cast, or the winner
      together with the revealed imposters and word, which are shown
      whichever side won. */
  datatype Verdict = NoVotesCast | Decided(winner: Winner, imposters: set<PlayerId>, word: Option<string>)

  /** The reference verdict: what a tally of `g` announces, stated through
      the declarative `ImposterCaught`. It is not the source's algorithm;
      `TallyVotes` and `TallyOutcome` run that algorithm and are proved to
      agree with it. */
  function Decide(g: Game): (v: Verdict)
    ensures v == NoVotesCast <==> |g.votes| == 0
    ensures v.Decided? ==> v.imposters == g.imposters && v.word == g.word
    ensures v.Decided? ==> (v.winner == Players <==> ImposterCaught(g.votes, g.imposters))
  {
    if |g.votes| == 0 then NoVotesCast
    else Decided(if ImposterCaught(g.votes, g.imposters) then Players else Imposters, g.imposters, g.word)
  }

  /** Adding one voter to the counted set adds one ballot to that voter's
      target and none to any other. */
  lemma BallotsAddVoter(votes: map<PlayerId, PlayerId>, voters: set<PlayerId>, v: PlayerId, t: PlayerId)
    requires v in votes && v !in voters
    ensures |Ballots(votes, voters + {v}, t)| == |Ballots(votes, voters, t)| + (if votes[v] == t then 1 else 0)
  {
    if votes[v] == t {
      assert Ballots(votes, voters + {v}, t) == Ballots(votes, voters, t) + {v};
    } else {
      assert Ballots(votes, voters + {v}, t) == Ballots(votes, voters, t);
    }
  }

  /** Every target of a vote has a positive count. */
  lemma TargetHasVotes(votes: map<PlayerId, PlayerId>, v: PlayerId)
    requires v in votes
    ensures VotesFor(votes, votes[v]) > 0
  {
    assert v in Ballots(votes, votes.Keys, votes[v]);
  }

  /** A positive count has a voter behind it. */
  lemma VoterFor(votes: map<PlayerId, PlayerId>, t: PlayerId) returns (v: PlayerId)
    requires VotesFor(votes, t) > 0
    ensures v in votes && votes[v] == t
  {
    v := SomeElement(Ballots(votes, votes.Keys, t));
  }

  /** The counting loop of `tally_votes`: one pass over the votes, adding
      one to the count of each vote's target. */
  method CountVotes(votes: map<PlayerId, PlayerId>) returns (counts: map<PlayerId, nat>)
    ensures forall v :: v in votes ==> votes[v] in counts
    ensures forall t :: t in counts ==> counts[t] == VotesFor(votes, t) && counts[t] > 0
  {
    counts := map[];
    var rest := votes.Keys;
    while rest != {}
      invariant rest <= votes.Keys
      invariant forall t :: t in counts ==> counts[t] == |Ballots(votes, votes.Keys - rest, t)| && counts[t] > 0
      invariant forall t :: t !in counts ==> |Ballots(votes, votes.Keys - rest, t)| == 0
      decreases rest
    {
      ghost var w := SomeElement(rest);
      var v :| v in rest;
      var done := votes.Keys - rest;
      assert votes.Keys - (rest - {v}) == done + {v};
      forall t ensures |Ballots(votes, done + {v}, t)| == |Ballots(votes, done, t)| + (if votes[v] == t then 1 else 0) {
        BallotsAddVoter(votes, done, v, t);
      }
      var target := votes[v];
      counts := counts[target := (if target in counts then counts[target] else 0) + 1];
      rest := rest - {v};
    }
    assert votes.Keys - rest == votes.Keys;
    forall v | v in votes ensures votes[v] in counts {
      TargetHasVotes(votes, v);
    }
  }

  /** Two different targets cannot both hold the strict maximum. */
  lemma StrictLeaderUnique(votes: map<PlayerId, PlayerId>, t: PlayerId, l: PlayerId)
    requires StrictLeader(votes, t) && StrictLeader(votes, l)
    ensures t == l
  {
    var vt := VoterFor(votes, t);
    var vl := VoterFor(votes, l);
  }

  /** A set with at least two elements holds one other than `t`. */
  lemma OtherMember(s: set<PlayerId>, t: PlayerId) returns (l: PlayerId)
    requires |s| >= 2
    ensures l in s && l != t
  {
    assert |s - {t}| >= |s| - 1;
    l := SomeElement(s - {t});
  }

  /** The outcome computation of `tally_votes`: count the votes, take the
      highest count, collect the targets that reach it, and let the players
      win only when there is exactly one such target and it is an imposter.
      It agrees with the strict-maximum definition. */
  method TallyOutcome(votes: map<PlayerId, PlayerId>, imposters: set<PlayerId>) returns (caught: bool)
    requires |votes| > 0
    ensures caught <==> ImposterCaught(votes, imposters)
  {
    var counts := CountVotes(votes);
    var someVoter := SomeElement(votes.Keys);
    assert votes[someVoter] in counts;
    var maxVotes: nat := 0;
    var rest := counts.Keys;
    while rest != {}
      invariant rest <= counts.Keys
      invariant forall t :: t in counts && t !in rest ==> counts[t] <= maxVotes
      invariant (maxVotes == 0 && rest == counts.Keys) || exists t :: t in counts && counts[t] == maxVotes
      decreases rest
    {
      ghost var w := SomeElement(rest);
      var t :| t in rest;
      if counts[t] > maxVotes {
        maxVotes := counts[t];
      }
      rest := rest - {t};
    }
    var leaders := set t | t in counts && counts[t] == maxVotes;
    assert leaders != {} by {
      var w :| w in counts && counts[w] == maxVotes;
      assert w in leaders;
    }
    if |leaders| == 1 {
      ghost var w := SomeElement(leaders);
      var l :| l in leaders;
      assert |leaders - {l}| == 0;
      assert StrictLeader(votes, l) by {
        forall v | v in votes && votes[v] != l ensures VotesFor(votes, votes[v]) < VotesFor(votes, l) {
          assert votes[v] !in leaders - {l};
        }
      }
      caught := l in imposters;
      if !caught && ImposterCaught(votes, imposters) {
        var t :| t in imposters && StrictLeader(votes, t);
        StrictLeaderUnique(votes, t, l);
      }
    } else {
      caught := false;
      if ImposterCaught(votes, imposters) {
        var t :| t in imposters && StrictLeader(votes, t);
        var l := OtherMember(leaders, t);
        var vl := VoterFor(votes, l);
        var vt := VoterFor(votes, t);
        assert false;
      }
    }
  }

  /** `tally_votes` as a state step: a second call is a no-op because of
      the latch; the first sets the latch and announces the verdict. */
  function Tally(g: Game): (r: (Game, Option<Verdict>))
    ensures r.0.votesTallied
    ensures r.1.Some? <==> !g.votesTallied
    ensures g.votesTallied ==> r.0 == g
    ensures r.1.Some? ==> r.1.value == Decide(g) && r.0 == g.(votesTallied := true)
  {
    if g.votesTallied then (g, None) else (g.(votesTallied := true), Some(Decide(g)))
  }

  /** `tally_votes` with the source's counting algorithm. */
  method TallyVotes(g: Game) returns (g': Game, verdict: Option<Verdict>)
    ensures (g', verdict) == Tally(g)
    ensures verdict.Some? && verdict.value.Decided? ==>
              (verdict.value.winner == Players <==> ImposterCaught(g.votes, g.imposters))
  {
    if g.votesTallied {
      return g, None;
    }
    g' := g.(votesTallied := true);
    if |g.votes| == 0 {
      verdict := Some(NoVotesCast);
      return;
    }
    var caught := TallyOutcome(g.votes, g.imposters);
    verdict := Some(Decided(if caught then Players else Imposters, g.imposters, g.word));
  }

  /** Whether the `votes_tallied` attribute exists on the game object, and
      its value. */
  datatype Attribute = Missing | Present(value: bool)

  /** As written, `GameState.__init__` never creates `votes_tallied`; only a
      run of `tally_votes` sets it, and only to true. This reads the
      attribute off the model's latch; `AttributeAppearsWithVerdict` shows
      when it comes into existence. */
  function TalliedAttributeAsWritten(g: Game): (a: Attribute)
    ensures a.Present? ==> a.value
    ensures a.Missing? <==> !g.votesTallied
  {
    if g.votesTallied then Present(true) else Missing
  }

  /** The vote timer going off (`auto_tally_votes` after its sleep), as
      written: the direct read of the missing attribute raises, and the
      handler swallows the error, so the timer never tallies. */
  function TimerFiresAsWritten(g: Game): (r: (Game, Option<Verdict>))
    ensures r == (g, None)
  {
    if !g.started then (g, None)
    else
      match TalliedAttributeAsWritten(g)
      case Missing => (g, None)
      case Present(tallied) => if !tallied then Tally(g) else (g, None)
  }

  /** The vote timer going off with the latch initialised to false: a
      started game not yet tallied is tallied with whatever votes exist. */
  function TimerFires(g: Game): (r: (Game, Option<Verdict>))
    ensures g.started && !g.votesTallied ==> r.1 == Some(Decide(g)) && r.0.votesTallied
    ensures g.started && !g.votesTallied ==> r == (g.(votesTallied := true), Some(Decide(g)))
    ensures !(g.started && !g.votesTallied) ==> r == (g, None)
  {
    if g.started && !g.votesTallied then Tally(g) else (g, None)
  }

  /** The timer task being cancelled, as written: line 618 reads the
      missing attribute directly, and the error raised inside the
      cancellation handler escapes it, so nothing is tallied. */
  function TimerCancelledAsWritten(g: Game): (r: (Game, Option<Verdict>))
    ensures r == (g, None)
  {
    match TalliedAttributeAsWritten(g)
    case Missing => (g, None)
    case Present(tallied) => if !tallied && |g.votes| == |g.joined| then Tally(g) else (g, None)
  }

  /** The timer task being cancelled, with the latch initialised to false:
      it tallies only if nobody has and everyone on the roster voted. In
      the source the only cancellations are the early tally, which sets the
      latch itself straight after, and `reset` of a discarded game. */
  function TimerCancelled(g: Game): (r: (Game, Option<Verdict>))
    ensures r.1.Some? <==> !g.votesTallied && |g.votes| == |g.joined|
    ensures r.1.Some? ==> r.1.value == Decide(g)
    ensures r.0.votesTallied <==> r.1.Some? || g.votesTallied
    ensures r.1.None? ==> r.0 == g
    ensures r.1.Some? ==> r.0 == g.(votesTallied := true)
  {
    if !g.votesTallied && |g.votes| == |g.joined| then Tally(g) else (g, None)
  }

  /** Two players, one vote cast, the timer runs out. As written nothing is
      announced; with the latch initialised the players win, having voted
      for the imposter. */
  lemma TimeoutWithMissingVote()
    ensures var g := NewGame(3).(joined := [1, 2], started := true, descriptionPhaseStarted := true,
                                 imposters := {2}, word := Some("apple"), votes := map[1 := 2], voted := {1});
            && TimerFiresAsWritten(g).1 == None
            && TimerFires(g).1 == Some(Decided(Players, {2}, Some("apple")))
  {
    var votes := map[1 := 2];
    assert Ballots(votes, votes.Keys, 2) == {1};
    assert StrictLeader(votes, 2);
  }

  /** What can happen while the vote is open. A kick is the ballot that
      completes a vote-kick. Timer cancellation is not an event: the early
      tally cancels the timer and tallies at once, and `reset` cancels it
      only after the game has ended. */
  datatype VotingEvent =
    | Cast(voter: PlayerId, target: PlayerId)
    | Departs(player: PlayerId)
    | Kicked(player: PlayerId)
    | TimerFire

  /** One event under a configured minimum roster size. Refused votes,
      leaves and kicks change nothing. A vote that completes the roster's
      votes is tallied at once. The flag says whether the event ended the
      game with `end_game`: every verdict does, and so does a leave or kick
      that leaves fewer players than the minimum. */
  function Step(g: Game, e: VotingEvent, minPlayers: int): (r: (Game, Option<Verdict>, bool))
    ensures r.1.Some? ==> !g.votesTallied && r.1.value == Decide(r.0) && r.2
    ensures r.0.votesTallied <==> g.votesTallied || r.1.Some?
    ensures e.Cast? ==> (r.1.Some? <==> !g.votesTallied && CastVote(g, e.voter, e.target).Success?
                                        && CastVote(g, e.voter, e.target).value.1)
    ensures e.Cast? || e.TimerFire? ==> (r.2 <==> r.1.Some?)
    ensures e.Departs? ==> r.1.None? && (r.2 <==> Leave(g, e.player).Success? && BelowMinimum(Leave(g, e.player).value, minPlayers))
    ensures e.Kicked? ==> r.1.None? && (r.2 <==> e.player !in g.kicked && BelowMinimum(Kick(g, e.player), minPlayers))
    ensures e.Cast? && CastVote(g, e.voter, e.target).Failure? ==> r.0 == g
    ensures e.Cast? && CastVote(g, e.voter, e.target).Success? ==>
              r.0.(votesTallied := g.votesTallied) == CastVote(g, e.voter, e.target).value.0
    ensures e.Departs? && Leave(g, e.player).Failure? ==> r.0 == g
    ensures e.Departs? && Leave(g, e.player).Success? ==> r.0 == Leave(g, e.player).value
    ensures e.Kicked? && e.player in g.kicked ==> r.0 == g
    ensures e.Kicked? && e.player !in g.kicked ==> r.0 == Kick(g, e.player)
    ensures e.TimerFire? ==> (r.0, r.1) == TimerFires(g)
    ensures e.TimerFire? ==> (r.1.Some? <==> g.started && !g.votesTallied)
    ensures Wf(g) ==> Wf(r.0)
  {
    match e
    case Cast(voter, target) =>
      (match CastVote(g, voter, target)
       case Failure(_) => (g, None, false)
       case Success((g1, everyoneVoted)) =>
         if everyoneVoted then
           var (g2, v) := Tally(g1);
           (g2, v, v.Some?)
         else (g1, None, false))
    case Departs(p) =>
      (match Leave(g, p)
       case Failure(_) => (g, None, false)
       case Success(g1) => (g1, None, BelowMinimum(g1, minPlayers)))
    case Kicked(p) =>
      if p in g.kicked then (g, None, false)
      else
        var g1 := Kick(g, p);
        (g1, None, BelowMinimum(g1, minPlayers))
    case TimerFire =>
      var (g1, v) := TimerFires(g);
      (g1, v, v.Some?)
  }

  /** A run of events: the game, the verdicts announced in order, and
      whether the game ended. Once it has ended the game is discarded and
      the remaining events do not reach it. */
  function Run(g: Game, events: seq<VotingEvent>, minPlayers: int): (Game, seq<Verdict>, bool)
    decreases |events|
  {
    if |events| == 0 then (g, [], false)
    else
      var (g1, v, ended) := Step(g, events[0], minPlayers);
      if ended then (g1, if v.Some? then [v.value] else [], true)
      else Run(g1, events[1..], minPlayers)
  }

  /** However votes, departures, kicks and the timer interleave, at most
      one verdict is announced, none once the game was tallied; a verdict
      ends the game and leaves the latch closed. The "at most one" comes
      from the run stopping when the game ends: from an untallied game no
      run reaches a tallied game still in play, so only the tallied start
      exercises the latch. The latch's real job, guarding callbacks that
      interleave inside one tally, is not modelled. */
  lemma {:induction false} AtMostOneVerdict(g: Game, events: seq<VotingEvent>, minPlayers: int)
    ensures |Run(g, events, minPlayers).1| <= 1
    ensures g.votesTallied ==> |Run(g, events, minPlayers).1| == 0 && Run(g, events, minPlayers).0.votesTallied
    ensures |Run(g, events, minPlayers).1| == 1 ==> Run(g, events, minPlayers).0.votesTallied && Run(g, events, minPlayers).2
    decreases |events|
  {
    if |events| != 0 {
      var (g1, v, ended) := Step(g, events[0], minPlayers);
      if !ended {
        AtMostOneVerdict(g1, events[1..], minPlayers);
      }
    }
  }

  /** Once a run has ended the game, by a verdict or by dropping below the
      minimum, later events change nothing: no vote, leave or timer
      reaches the discarded game. */
  lemma {:induction false} NothingAfterEnd(g: Game, events: seq<VotingEvent>, later: seq<VotingEvent>, minPlayers: int)
    ensures Run(g, events, minPlayers).2 ==> Run(g, events + later, minPlayers) == Run(g, events, minPlayers)
    decreases |events|
  {
    if |events| != 0 {
      assert (events + later)[0] == events[0];
      assert (events + later)[1..] == events[1..] + later;
      var (g1, v, ended) := Step(g, events[0], minPlayers);
      if !ended {
        NothingAfterEnd(g1, events[1..], later, minPlayers);
      }
    }
  }

  /** Along any run from an untallied game, the `votes_tallied` attribute
      of the source comes into existence exactly when a verdict is
      announced; before that every direct read of it raises. */
  lemma {:induction false} AttributeAppearsWithVerdict(g: Game, events: seq<VotingEvent>, minPlayers: int)
    requires !g.votesTallied
    ensures TalliedAttributeAsWritten(Run(g, events, minPlayers).0).Present? <==> |Run(g, events, minPlayers).1| == 1
    decreases |events|
  {
    if |events| != 0 {
      var (g1, v, ended) := Step(g, events[0], minPlayers);
      if !ended {
        AttributeAppearsWithVerdict(g1, events[1..], minPlayers);
      }
    }
  }

  /** A button left over from an ended game acts on the reset object, whose
      roster is empty: its votes and kick ballots are refused. */
  lemma DiscardedGameRefusesBallots(g: Game, voter: PlayerId, target: PlayerId, poll: KickPoll)
    ensures CastVote(Reset(g), voter, target) == Failure(NotPartOfGame)
    ensures CastKickBallot(Reset(g), poll, voter) == Failure(VoterNotInGame)
  {
  }

  /** Removing a target purges the votes cast for them but keeps their
      voters in the voted set, so a voter can be marked as voted with no
      vote on record, and may then vote again. */
  lemma VotedOutlivesPurgedVote()
    ensures var g := NewGame(3).(joined := [1, 2, 4], started := true, votes := map[1 := 2], voted := {1});
            var r := RemovePlayer(g, 2);
            && 1 in r.voted && 1 !in r.votes
            && CastVote(r, 1, 4).Success?
  {
    var g := NewGame(3).(joined := [1, 2, 4], started := true, votes := map[1 := 2], voted := {1});
    var r := RemovePlayer(g, 2);
    assert 1 in r.joined;
  }

  /** `{A: X, B: X, C: Y}` with imposters `{X}`: the players win.
      `{A: X, B: Y}`: a tie, so the imposters win whoever the imposter is. */
  lemma TallyExamples()
    ensures ImposterCaught(map[1 := 10, 2 := 10, 3 := 11], {10})
    ensures !ImposterCaught(map[1 := 10, 2 := 11], {10})
    ensures !ImposterCaught(map[1 := 10, 2 := 11], {11})
  {
    var m := map[1 := 10, 2 := 10, 3 := 11];
    assert Ballots(m, m.Keys, 10) == {1, 2};
    assert Ballots(m, m.Keys, 11) == {3};
    assert StrictLeader(m, 10);
    var n := map[1 := 10, 2 := 11];
    assert Ballots(n, n.Keys, 10) == {1};
    assert Ballots(n, n.Keys, 11) == {2};
  }
}

=== FILE: words.dfy ===
/** The word pool of `WordManager.get_random_word`: a word is drawn from the
    words not used since the pool was last exhausted; when none is left the
    used set is cleared and the draw is from all words. The two text files
    are modelled as sets of lines. */
module Words {
  import opened Wrappers
  import opened Collections

  type Word = string

  /** The words a draw may pick from: there is something to pick exactly
      when the word list is not empty. */
  function Available(words: set<Word>, used: set<Word>): (a: set<Word>)
    ensures a <= words
    ensures a == {} <==> words == {}
  {
    if words - used != {} then words - used else words
  }

  /** A legitimate pick for the next draw. */
  predicate ValidPick(words: set<Word>, used: set<Word>, w: Word)
  {
    w in Available(words, used)
  }

  /** The used set after drawing `w`: cleared first if the pool was
      exhausted, then `w` added. */
  function UsedAfter(words: set<Word>, used: set<Word>, w: Word): (u: set<Word>)
    ensures w in u
    ensures w in words - used ==> words - u == (words - used) - {w}
  {
    if words - used != {} then used + {w} else {w}
  }

  datatype WordError = NoWords

  /** `get_random_word`. The random choice is any available word. With no
      words at all the used file has already been cleared when
      `random.choice` fails. */
  method GetRandomWord(words: set<Word>, used: set<Word>) returns (r: Result<Word, WordError>, used': set<Word>)
    ensures words == {} <==> r.Failure?
    ensures r.Failure? ==> used' == {}
    ensures r.Success? ==> r.value in words && ValidPick(words, used, r.value)
    ensures r.Success? && words - used != {} ==> r.value !in used && used' == used + {r.value}
    ensures r.Success? && words - used == {} ==> used' == {r.value}
  {
    var available := words - used;
    var usedNow := used;
    if available == {} {
      available := words;
      usedNow := {};
    }
    if available == {} {
      return Failure(NoWords), usedNow;
    }
    ghost var someWord := SomeElement(available);
    var w :| w in available;
    return Success(w), usedNow + {w};
  }

  /** A run of draws, each a valid pick from the state the previous ones
      left. */
  predicate ValidDraws(words: set<Word>, used: set<Word>, picks: seq<Word>)
    decreases |picks|
  {
    |picks| == 0
    || (ValidPick(words, used, picks[0]) && ValidDraws(words, UsedAfter(words, used, picks[0]), picks[1..]))
  }

  /** No word repeats before the pool is exhausted: as long as the number
      of draws does not exceed the number of unused words, the draws are
      distinct and none was used before. */
  lemma {:induction false} NoRepeatWithinCycle(words: set<Word>, used: set<Word>, picks: seq<Word>)
    requires ValidDraws(words, used, picks)
    requires |picks| <= |words - used|
    ensures forall i :: 0 <= i < |picks| ==> picks[i] !in used && picks[i] in words
    ensures forall i, j :: 0 <= i < j < |picks| ==> picks[i] != picks[j]
    decreases |picks|
  {
    if |picks| != 0 {
      var w := picks[0];
      var used1 := UsedAfter(words, used, w);
      assert words - used != {} by {
        assert |words - used| > 0;
      }
      assert w in words - used;
      NoRepeatWithinCycle(words, used1, picks[1..]);
      forall i | 0 <= i < |picks| ensures picks[i] !in used && picks[i] in words {
        if i > 0 {
          assert picks[i] == picks[1..][i - 1];
        }
      }
      forall i, j | 0 <= i < j < |picks| ensures picks[i] != picks[j] {
        assert picks[j] == picks[1..][j - 1];
        if i > 0 {
          assert picks[i] == picks[1..][i - 1];
        }
      }
    }
  }
}

=== FILE: wrappers.dfy ===
/** Failure-carrying result types shared by the game model. */
module Wrappers {

  /** An optional value: a Python `Optional[...]` or a dictionary `.get` miss. */
  datatype Option<+T> = None | Some(value: T)

  /** The outcome of an operation that the bot either performs or refuses
      with a short message to the acting user. */
  datatype Result<+R, +E> = Success(value: R) | Failure(error: E)
}
